=== FILE: README.md ===
# Learning-platform API core, modelled in Dafny

This project models the request handlers of a small learning-platform back end. It is an
Express/Mongoose service with accounts, a content catalog, an interaction log, personalised
recommendations, per-user insights and a keyword chatbot. The model covers what each handler
decides: which error it raises, with which status, what it stores and what it answers.

- **Stores are values.** Each collection is a Dafny sequence in natural (insertion) order:
  users, content items and interaction logs. A handler that writes returns the new sequence
  together with its answer.
- **Foreign calls are parameters.** Password hashing and comparison, token signing and token
  verification are passed in as functions.
- **Settings and time are parameters.** The current time, `JWT_SECRET`, `JWT_EXPIRE` and
  `NODE_ENV` are plain arguments. An unset or empty setting is the empty string.

Modules, one per concern of the program:

| module | file | models |
|---|---|---|
| `Wrappers`, `Identity` | wrappers.dfy, identity.dfy | `Option`/`Result`; ids are strings, instants are integers |
| `Errors` | errors.dfy | `ErrorResponse`, `res.status(..); throw new Error(..)`, and the global error handler |
| `Seqs`, `Sorting` | seqs.dfy, sorting.dfy | the store's filter, projection and `.limit(n)` (where `0` means no limit); `[...new Set(xs)]`; a descending sort |
| `Text` | text.dfy | JavaScript `trim`, `toLowerCase`, `includes`, `startsWith`, `split`, `length` in UTF-16 units, and `parseInt` |
| `Validation` | validation.dfy | schema validation errors and their message |
| `ContentModel`, `UserModel`, `InteractionLogModel` | content_model.dfy, user_model.dfy, interaction_log.dfy | the three schemas: setters, defaults, validators, hooks |
| `Queries` | queries.dfy | the finds, sorts and limits the handlers issue |
| `Recommendation` | recommendation.dfy | `getRecommendations` |
| `RecommendationEngine` | recommendation_engine.dfy | `generateInternalRecommendations` |
| `Insights` | insights.dfy | `getUserInsights` |
| `Chatbot` | chatbot.dfy | `handleChat` |
| `AuthMiddleware` | auth_middleware.dfy | `protect` and `authorize` |
| `AuthController` | auth_controller.dfy | `register`, `login`, `getMe` and `sendTokenResponse` |
| `ContentController` | content_controller.dfy | list, get, create, update and delete |

Behaviour worth knowing that the model makes explicit:

- **Schema failures answer 500, not 400.** A failed schema validation raises an error with
  no status code. No status has been set at that point, so the error handler answers 500.
  This covers register, create and update.
- **Ties in a sort are resolved by the model.** The store leaves the order among items with
  equal `createdAt`, or logs with equal `timestamp`, open. The model fixes one order where
  the program's is unspecified.
- **Recommendation records come back in catalog order.** They are fetched with `$in`, not in
  the order they were selected.
- **`protect` hides its own errors.** Its own errors for a missing secret and for a deleted
  user are caught by its own `catch`. They reach the client as 401 "token verification
  failed" (see Findings).
- **Updates apply the body as sent.** `updateContent` passes the request body to
  `findByIdAndUpdate` unchanged. A body that sets `createdBy`, `createdAt` or `updatedAt`
  therefore changes them, and the model follows the code here. The save hook does not run,
  so `updatedAt` is not refreshed.
- **Email lookups compare normalised addresses.** The schema's `lowercase` and `trim` setters
  also apply to query values.

## Model

| member | source | states |
|---|---|---|
| Errors.ResolveStatus | middleware/errorMiddleware.js:3-8 | a truthy `err.statusCode` decides when present, otherwise the status already set on the response; whichever decides, a code below 400 becomes 500, so the status is always at least 400 |
| Errors.HandleError | middleware/errorMiddleware.js:12-17 | the envelope has `success: false`, `error` is the message or "Server Error" when it is empty, `stack` is null exactly in production |
| Errors.RejectKeepsStatus | utils/errorResponse.js:3-6 | an `ErrorResponse` with an error status reaches the client with that status and its own message |
| Errors.ThrowKeepsStatus | middleware/errorMiddleware.js:3-8 | a plain error thrown after `res.status(code)` with an error code is answered with that code |
| Errors.CrashIsServerError | middleware/errorMiddleware.js:3-8 | a plain error thrown before any status was set is answered with 500 |
| Text.Trim | controllers/chatbotController.js:16 | the trimmed string is a contiguous slice of the input with no whitespace at either end, and everything cut off before and after it is whitespace |
| Text.TrimEmptyIff | controllers/chatbotController.js:12 | a string trims to nothing exactly when every character is whitespace |
| Text.TrimIdempotent | models/Content.js:7 | trimming twice is trimming once |
| Text.TrimUnchanged | models/Content.js:7 | a string with no whitespace at either end is its own trim |
| Text.ToLower | controllers/chatbotController.js:21 | the lower-cased string contains no ASCII capital, no dotted capital I and no Kelvin sign |
| Text.ToLowerIdempotent | controllers/chatbotController.js:21 | lower-casing twice is lower-casing once |
| Text.LowerUnchanged | controllers/chatbotController.js:21 | a string with no character that lower-cases differently is its own lower-case form |
| Text.TrimLower | controllers/chatbotController.js:16-21 | trimming and lower-casing commute |
| Text.ToLowerIgnoresAsciiCase | controllers/chatbotController.js:21 | strings that differ only in ASCII letter case lower-case alike |
| Text.ContainsIff | controllers/chatbotController.js:39 | `includes` holds exactly when the keyword occurs at some position |
| Text.Utf16Length | models/Content.js:8 | `length` counts UTF-16 code units: between the number of characters and twice that |
| Text.SplitJoin | middleware/authMiddleware.js:52 | joining the pieces of `split(sep)` with `sep` gives back the string |
| Text.ParseShow | controllers/recommendationController.js:12 | `parseInt` reads back the decimal rendering of any integer |
| Text.ParseIntUnreadable | controllers/recommendationController.js:12 | `parseInt` of `"abc"`, `""` and `"-"` is NaN |
| Text.ParseIntPadded | controllers/recommendationController.js:12 | `parseInt(" 07px")` skips the blank and the leading zero and stops at the letter, giving 7 |
| ContentModel.ParseContentType | models/Content.js:15-19 | a type is accepted exactly when it is one of the seven names, case-sensitively |
| ContentModel.ContentTypeRoundTrip | models/Content.js:18 | every content type parses back from its name |
| ContentModel.TitleErrors | models/Content.js:4-9 | a title passes exactly when it is non-empty and at most 150 UTF-16 units long |
| ContentModel.KindErrors | models/Content.js:15-19 | the type passes exactly when it is one of the seven names |
| ContentModel.DurationErrors | models/Content.js:35-38 | a duration passes exactly when absent or at least 0 |
| ContentModel.NewContent | models/Content.js:3-59 | creation succeeds exactly when no rule fails; the stored item is valid with trimmed title and description, every other field as supplied, tags default to empty, and `updatedAt` is the save time |
| ContentModel.ApplyUpdate | controllers/contentController.js:83-86 | an update succeeds exactly when the supplied paths pass their validators; every one of the ten paths is set to the supplied value (strings trimmed) when present and keeps its stored value otherwise, so `updatedAt` changes only when the body sets it |
| ContentModel.PatchedValid | models/Content.js:4-38 | an update that passes its validators leaves a valid item |
| ContentModel.WhitespaceTitleRejected | models/Content.js:4-7 | a whitespace-only title is rejected as missing, because trimming runs before `required` |
| UserModel.ParseRole | middleware/models/User.js:29-33 | a role is accepted exactly when it is `user` or `admin` |
| UserModel.RoleRoundTrip | middleware/models/User.js:31 | every role parses back from its name |
| UserModel.NormalizeEmail | middleware/models/User.js:20-21 | a stored email has no whitespace at either end and no ASCII capital |
| UserModel.PasswordErrors | middleware/models/User.js:23-26 | a password passes exactly when it has at least 6 UTF-16 units |
| UserModel.RoleErrors | middleware/models/User.js:29-33 | the role passes exactly when absent or a known role |
| UserModel.NewUser | middleware/models/User.js:6-60 | creation succeeds exactly when no rule fails; the user has the trimmed name, normalised email, hashed password, the given role or `user`, and no interests |
| UserModel.MatchPassword | middleware/models/User.js:65-71 | no stored password never matches; otherwise the hash comparison decides |
| InteractionLogModel.ParseInteractionType | models/InteractionLog.js:16-21 | a type is accepted exactly when it is one of the six names |
| InteractionLogModel.InteractionTypeRoundTrip | models/InteractionLog.js:19 | every interaction type parses back from its name |
| InteractionLogModel.NewLog | models/InteractionLog.js:3-30 | a log is created exactly when user, content and a known type are given; the timestamp defaults to now |
| InteractionLogModel.NoBookmarkOrShare | models/InteractionLog.js:19 | `bookmark` and `share` are rejected |
| Queries.FindContent | controllers/contentController.js:24 | `findById` finds an item exactly when one has that id, and the item found has it |
| Queries.FindContentUnique | controllers/contentController.js:24 | with unique ids, looking up a stored item's id finds that very item |
| Queries.FindUser | controllers/authController.js:115 | `findById` on users finds a user exactly when one has that id |
| Queries.FindUserByEmail | controllers/authController.js:54 | `findOne({ email })` finds a user exactly when one has the normalised address |
| Queries.UniqueSelection | controllers/recommendationController.js:30-35 | filtering, sorting and limiting a catalog with unique ids never repeats an id |
| Queries.NewestOutside | controllers/recommendationController.js:48-54 | the fallback query returns catalog items outside the excluded ids, newest first, at most `n` (all when `n` is 0) |
| Queries.NewestOutsideIsNewest | controllers/recommendationController.js:48-54 | any item left out is no newer than any item returned |
| Queries.OlderThanReturnedId | controllers/recommendationController.js:48-54 | every returned id names a catalog item, and an eligible item left out is no newer than it |
| Queries.OlderLeftOut | controllers/recommendationController.js:48-54 | an eligible item whose id was left out is no newer than an item whose id was returned |
| Queries.NewestOutsideExhausts | controllers/recommendationController.js:48-54 | when fewer than `n` come back, every item outside the excluded ids is returned |
| Queries.FindAmong | controllers/recommendationController.js:74 | `$in` returns exactly the catalog items whose id is listed |
| Queries.FindAmongCount | controllers/recommendationController.js:74 | for distinct listed ids of catalog items, `$in` returns one item per id |
| Queries.RecentLogs | controllers/recommendationController.js:20-22 | the log query returns only matching logs, as many as the window allows (all when it is 0) |
| Queries.RecentLogsAreNewest | controllers/recommendationController.js:20-22 | a matching log left out of the window is no newer than any log kept |
| Queries.SeenIds | controllers/recommendationController.js:20-26 | the seen ids are distinct and each comes from a matching log in the window |
| Queries.SortedItemsNewestFirst | services/recommendationEngine.js:30-31 | ids of items sorted by `createdAt` are listed newest first |
| Sorting.SortDesc | controllers/contentController.js:10-11 | `.sort({ createdAt: -1 })` gives a permutation sorted newest first |
| Sorting.TakeIsNewest | controllers/recommendationController.js:51-53 | an item cut by the limit after sorting is no newer than any item kept |
| Seqs.Dedup | controllers/recommendationController.js:26 | `[...new Set(xs)]` has no duplicates and the same members as `xs` |
| Seqs.Limit | controllers/recommendationController.js:34 | `.limit(n)` keeps a prefix of exactly `n` elements, or all of them when there are fewer, and everything when `n` is 0 |
| Recommendation.ResolveLimit | controllers/recommendationController.js:12 | the limit is what `parseInt` reads from the query when that is a non-zero number, and 5 when the query is absent, unreadable (NaN) or 0 |
| Recommendation.UnreadableLimitIsDefault | controllers/recommendationController.js:12 | `limit=abc`, an empty `limit=` and `limit=-` all give 5 |
| Recommendation.PaddedLimitIsRead | controllers/recommendationController.js:12 | `limit= 07px` gives 7, as `parseInt` reads it |
| Recommendation.ResolveLimitReadsNumber | controllers/recommendationController.js:12 | a limit written as a number is that number, except that 0 means 5 |
| Recommendation.SeenContent | controllers/recommendationController.js:20-26 | at most 20 distinct ids, each from a `view` or `complete` log of the user |
| Recommendation.UnseenLogIsOld | controllers/recommendationController.js:20-23 | a `view`/`complete` log whose content is not seen lies outside a full window of 20 newer logs |
| Recommendation.SeenIgnoresOtherLogs | controllers/recommendationController.js:20 | logs of other users or other types never change the seen set |
| Recommendation.InterestItems | controllers/recommendationController.js:29-35 | at most `limit` unseen catalog items sharing a tag with the user's interests, none unless the user exists and has interests |
| Recommendation.InterestStage | controllers/recommendationController.js:29-37 | the interest ids are distinct, unseen and at most `limit`, and each names a catalog item with a tag among the user's interests |
| Recommendation.InterestStageExhausts | controllers/recommendationController.js:30-34 | when the interest stage returns fewer than `limit`, every unseen matching item is in it |
| Recommendation.FallbackStage | controllers/recommendationController.js:45-56 | the fallback adds only distinct, unseen, not yet picked catalog ids, never beyond `limit` in total, and nothing when the limit is met |
| Recommendation.Select | controllers/recommendationController.js:15-64 | the combined ids are distinct, unseen, in the catalog and at most `limit`, and every interest pick names a catalog item with a tag among the user's interests |
| Recommendation.SourceLabel | controllers/recommendationController.js:38-62 | `user_interests` exactly when only interests contributed, `fallback_recent` exactly when interests contributed nothing, the composite exactly when both did |
| Recommendation.LabelMeaning | controllers/recommendationController.js:58-62 | the same three equivalences for the label function itself |
| Recommendation.NoInterestsMeansNewest | controllers/recommendationController.js:29-57 | a missing user or one without interests gets exactly the newest unseen items, labelled `fallback_recent` |
| Recommendation.SelectionExhausts | controllers/recommendationController.js:45-57 | fewer than `limit` ids only when every unseen item was selected |
| Recommendation.FallbackIsNewest | controllers/recommendationController.js:48-56 | every catalog item the fallback returned is at least as new as any unseen, unpicked item it left out |
| Recommendation.GetRecommendations | controllers/recommendationController.js:10-85 | `count` is the number of records and at most the limit; every record is an unseen catalog item; the records are exactly the selected ids; the label is one of the three |
| RecommendationEngine.History | services/recommendationEngine.js:24-28 | at most 50 distinct ids; an id is in it exactly when one of the user's 50 newest logs, of any type, names it |
| RecommendationEngine.HistoryLogIsOld | services/recommendationEngine.js:24-28 | a log of the user whose content is not in the history lies outside a full window of 50 of the user's logs, all at least as new |
| RecommendationEngine.GenerateInternalRecommendations | services/recommendationEngine.js:9-38 | distinct ids of catalog items outside the history, newest first, at most the limit (5 by default, unbounded for 0) |
| RecommendationEngine.EngineIsNewest | services/recommendationEngine.js:30-33 | an unseen item left out is no newer than any returned one, and something is left out only when the limit was reached |
| Insights.CompletedAppend | controllers/userInsightsController.js:13-16 | one more log raises the completed count by one exactly when it is a `complete` log of the user |
| Insights.ViewedAppend | controllers/userInsightsController.js:20-23 | one more log adds its content to the viewed set exactly when it is a `view` log of the user |
| Insights.GetUserInsights | controllers/userInsightsController.js:8-43 | `completedCount` is the number of the user's `complete` logs, `viewedCount` the number of distinct contents of their `view` logs |
| Insights.IrrelevantLogIgnored | controllers/userInsightsController.js:13-23 | logs of other users, and `start` logs, change neither count |
| Insights.RepeatCompletionCounts | controllers/userInsightsController.js:13-16 | every completion counts, even a repeat |
| Insights.ViewCountsOncePerContent | controllers/userInsightsController.js:20-24 | a repeat view adds nothing, a first view adds one |
| Insights.ViewedAtMostViews | controllers/userInsightsController.js:20-24 | `viewedCount` never exceeds the number of the user's `view` logs |
| Chatbot.FirstMatch | controllers/chatbotController.js:37-43 | the first rule, in table order, whose keyword occurs in the text; none exactly when no keyword occurs |
| Chatbot.Respond | controllers/chatbotController.js:17-43 | the reply is the first matching rule's reply, or the apology when nothing matches |
| Chatbot.HandleChat | controllers/chatbotController.js:8-65 | a missing, non-string or blank message is refused with 400; otherwise `query` is the trimmed message, `source` is `basic_keywords` and the reply answers the lower-cased query |
| Chatbot.ReplyIgnoresCase | controllers/chatbotController.js:16-39 | a message and its lower-cased form get the same reply |
| Chatbot.KeywordInsideWord | controllers/chatbotController.js:39 | "this" gets the reply for "hi" |
| Chatbot.TableOrderWins | controllers/chatbotController.js:24-43 | "hi hello" gets the reply for "hello", the earlier rule |
| Chatbot.BlankMessageRejected | controllers/chatbotController.js:12-14 | a whitespace-only message is refused with 400 |
| AuthMiddleware.PrincipalOf | middleware/authMiddleware.js:65 | `req.user` keeps every user field except the password |
| AuthMiddleware.BearerToken | middleware/authMiddleware.js:52 | the token is the text after `Bearer ` up to the next space or the end |
| AuthMiddleware.TryAuthenticate | middleware/authMiddleware.js:55-76 | a missing secret raises a 500 error; otherwise a token that verifies to a stored user's id yields that user, a vanished user raises the 401 error, and a library error is raised by name |
| AuthMiddleware.Caught | middleware/authMiddleware.js:77-91 | the error name alone picks the message: invalid signature, expired, or verification failed; always 401 |
| AuthMiddleware.Protect | middleware/authMiddleware.js:42-99 | a missing or non-`Bearer ` header gives 401 "no token provided"; the request passes exactly when the token verifies to a stored user; an error the token library reports is answered with the message the `catch` picks from its name; every failure is 401 with one of four messages |
| AuthMiddleware.ProtectAdmits | middleware/authMiddleware.js:60-76 | an admitted request carries the stored user whose id the token names, minus the password |
| AuthMiddleware.MissingSecretAnswered401 | middleware/authMiddleware.js:55-91 | as written, a missing secret is answered 401 "token verification failed" |
| AuthMiddleware.LibraryErrorsByName | middleware/authMiddleware.js:77-90 | an expired token gets "token has expired", a malformed or badly signed one (the empty token included) "invalid token signature", any other library error "token verification failed", all 401 |
| AuthMiddleware.DeletedUserAnsweredGeneric | middleware/authMiddleware.js:65-91 | as written, a deleted user's valid token gets the generic message, not the vanished-user one |
| AuthMiddleware.ProtectIntended | middleware/authMiddleware.js:55-70 | the corrected guard: a missing secret answers 500 with its own message, and it admits exactly the same requests |
| AuthMiddleware.IntendedMissingSecretIs500 | middleware/authMiddleware.js:55-59 | the corrected guard answers a missing secret with 500 and the configuration message |
| AuthMiddleware.ProtectVersionsAgree | middleware/authMiddleware.js:77-91 | with a secret set and the user present, the two guards give the same answer |
| AuthMiddleware.Authorize | middleware/authMiddleware.js:103-119 | no user gives 401; a role outside the list gives 403 naming the role; a listed role passes |
| AuthMiddleware.AdminOnly | middleware/authMiddleware.js:112-117 | `authorize('admin')` admits exactly administrators |
| AuthMiddleware.AdminGuard | routes/authRoutes.js:14-23 | the content write guard admits only administrators |
| AuthMiddleware.AdminGuardAdmits | routes/authRoutes.js:14-23 | the guard admits exactly a token that verifies to a stored administrator |
| AuthController.Summary | controllers/authController.js:20-27 | the summary has exactly id, name, email, role and interests of the user |
| AuthController.Register | controllers/authController.js:45-77 | a missing field gives 400; a taken email gives 400 and the store is unchanged; success appends one user with the normalised email, hashed password and the given or default role, and answers 201 with no token |
| AuthController.RegisterKeepsEmailsUnique | controllers/authController.js:53-57 | registering never lets two users share an email |
| AuthController.RegisterInvalidIsServerError | controllers/authController.js:73-76 | a schema failure during registration is answered 500 |
| AuthController.SignedToken | middleware/models/User.js:74-83 | a token is signed over the user's id exactly when both settings are present; otherwise the configuration error is raised |
| AuthController.SendTokenResponse | controllers/authController.js:6-39 | the reply carries the status, the signed token and the user summary exactly when both JWT settings are present; otherwise the configuration error is raised |
| AuthController.Login | controllers/authController.js:82-106 | a missing field gives 400; an unknown email or a wrong password gives 401 "Invalid credentials"; with the right credentials but a JWT setting missing, the configuration error is raised; success answers 200 with a token and the summary of the user with that email |
| AuthController.LoginUnconfiguredIsServerError | controllers/authController.js:82-106 | with the right credentials and a JWT setting missing, login ends as a 500 carrying the configuration message |
| AuthController.LoginHidesWhichCheckFailed | controllers/authController.js:93-102 | an unknown email and a wrong password get identical answers |
| AuthController.LoginFinds | controllers/authController.js:91-105 | the right password for a stored email signs that user in |
| AuthController.RegisterThenLogin | controllers/authController.js:45-106 | after registering, logging in with the same address (any case) and password succeeds and shows the new user |
| AuthController.GetMe | controllers/authController.js:111-137 | an absent user gives 404, otherwise 200 with the user's summary |
| AuthController.LoginThenGetMe | controllers/authController.js:111-137 | `getMe` for a logged-in user shows the summary login returned |
| ContentController.GetAllContent | controllers/contentController.js:8-18 | every item exactly once, newest first, and `count` is their number |
| ContentController.GetContentById | controllers/contentController.js:23-34 | 404 naming the id exactly when no item has it, otherwise the item with that id |
| ContentController.CreateFields | controllers/contentController.js:44-58 | only title, description, type, url and tags pass to the store |
| ContentController.CreateContent | controllers/contentController.js:39-64 | a missing title, description or type gives 400 and the store is unchanged; success appends exactly the created item and answers 201 |
| ContentController.CreatedItem | controllers/contentController.js:51-58 | the created item is valid, has no creator, the given url and tags, and the current time as both timestamps |
| ContentController.CreateIgnoresOtherFields | controllers/contentController.js:44 | body fields other than the five make no difference |
| ContentController.Remove | controllers/contentController.js:110 | exactly the items with other ids remain |
| ContentController.Replace | controllers/contentController.js:83-86 | the item with the id is replaced and every other item stays in place |
| ContentController.UpdateContent | controllers/contentController.js:69-92 | an absent id gives 404; otherwise the update applies to that item only, or fails validation with the store unchanged |
| ContentController.DeleteContent | controllers/contentController.js:97-119 | 404 exactly when no item has the id; otherwise that item is removed and the fixed message returned |
| ContentController.AppendFresh | controllers/contentController.js:51-58 | appending a valid item with a fresh id keeps the store valid and makes the item findable |
| ContentController.CreateThenGet | controllers/contentController.js:23-64 | after a create, the new id fetches the created item |
| ContentController.ReplaceValid | controllers/contentController.js:83-86 | replacing an item keeps the store valid; the id finds the new item, other ids what they found before |
| ContentController.UpdateThenGet | controllers/contentController.js:23-92 | after an update, the id fetches the updated item and every other id what it fetched before |
| ContentController.DeleteThenGet | controllers/contentController.js:97-119 | after a delete, the id gives 404, other ids fetch what they fetched before, and the store is one shorter |
| ContentController.RemoveCount | controllers/contentController.js:110 | deleting one id from a store with unique ids removes exactly one item |

## Left out

- Database and drivers: connection, indexes other than the unique `_id` and email, and
  concurrency between requests. A store is a sequence and a handler runs atomically.
- Route wiring and server start-up. `server.js` imports an `errorHandler` that
  `middleware/errorMiddleware.js` does not export. `routes/contentRoutes.js` imports
  handler names the content controller does not define. `routes/userInsightsRoutes.js`
  holds an older diff. The handlers and guards are modelled directly.
- The first `protect` in `middleware/authMiddleware.js` (lines 8-37): a diff leftover that
  the second definition replaces.
- `services/aiService.js` and the commented-out expansion in the chatbot: no call reaches them.
- Hashing, salt generation, comparison, token signing and verification: foreign functions
  passed in. An empty token is treated as the library's malformed-token error.
- Logging (`console.log`/`console.error`), cookie options (`JWT_COOKIE_EXPIRE`) and stack traces
  (the stack is a parameter).
- UserModel.NewUser: does not check the email `match` pattern, because regular expressions are
  not modelled.
- ContentModel.NewContent: does not check the url `match` pattern, because regular expressions
  are not modelled.
- ContentModel.ApplyUpdate: does not check the url `match` pattern either, for the same reason.
- Store ids: ids are strings. A malformed ObjectId, which makes the store throw a cast error,
  is not modelled.
- Non-string and array request values: a body field is a string or absent (the chatbot also
  distinguishes non-strings). Array query parameters are not modelled.
- Text.ToLower: covers ASCII letters, the dotted capital I and the Kelvin sign only. Every
  other character keeps its value, so the result is exact wherever ASCII keywords are matched.
- Recommendation.GetRecommendations: requires a resolved limit of at least 1. A negative
  `?limit=` is not modelled, because the store's meaning of a negative limit is
  driver-specific.
- Order among equal sort keys: the store does not promise one, so the model fixes one
  (`Sorting.SortDesc`). It decides which tied item the fallback recommends and which tied logs
  the 20-log and 50-log windows keep, so `Recommendation.NoInterestsMeansNewest` holds for
  this order only. The ordering lemmas (`Queries.NewestOutsideIsNewest`,
  `Queries.RecentLogsAreNewest`, `Recommendation.FallbackIsNewest`) compare keys only, which any tie-break would satisfy.
- Floating-point numbers: durations and limits are integers.
- Ordering of validation messages: errors are joined in schema order, an order the store
  does not promise.
- InteractionLogModel.NewLog: `details` is restricted to scalar values.

## Findings

| source | as written | input that shows it | evidently intended | confidence | as-written member | corrected member |
|---|---|---|---|---|---|---|
| middleware/authMiddleware.js:55-91 | the missing-secret error is thrown inside the `try`, so the `catch` replaces it with 401 "token verification failed" | header `Bearer abc`, `JWT_SECRET` unset | answer 500 "Server configuration error: Cannot verify token", as set at lines 57-58 | medium, not executed | AuthMiddleware.MissingSecretAnswered401 | AuthMiddleware.IntendedMissingSecretIs500 |
| middleware/authMiddleware.js:65-91 | the vanished-user error is thrown inside the `try`, so the `catch` replaces its message with the generic one | a valid token whose user was deleted | answer 401 "Not authorized, user associated with this token no longer exists" | medium, not executed | AuthMiddleware.DeletedUserAnsweredGeneric | AuthMiddleware.ProtectIntended |

=== FILE: auth_controller.dfy ===
/** Account handlers (`controllers/authController.js`): register, login and the current
    user. The user collection is a sequence; hashing, comparing and token signing are
    foreign calls passed in as functions; the `JWT_SECRET` and `JWT_EXPIRE` settings are
    parameters with the empty string standing for "not set". A body field that is missing
    or empty is the empty string. */
module AuthController {
  import opened Wrappers
  import opened Identity
  import opened Text
  import opened Errors
  import opened Validation
  import opened UserModel
  import opened Queries

  const RegisterFieldsMissing := "Please provide name, email, and password"
  const EmailTaken := "Email already registered"
  const Registered := "User registered successfully. Please log in."
  const LoginFieldsMissing := "Please provide an email and password"
  const InvalidCredentials := "Invalid credentials"
  const JwtNotConfigured := "JWT Secret or Expiration not defined in environment variables"
  const UserMissing := "User not found"
  const UserValidationFailed := "User validation failed"

  /** The user data the handlers send back: exactly `_id`, `name`, `email`, `role` and
      `interests`, never the password. */
  datatype UserSummary = UserSummary(id: Id, name: string, email: string, role: Role, interests: seq<string>)

  function Summary(u: User): (s: UserSummary)
    ensures s.id == u.id && s.name == u.name && s.email == u.email && s.role == u.role && s.interests == u.interests
  {
    UserSummary(u.id, u.name, u.email, u.role, u.interests)
  }

  datatype RegisterReply = RegisterReply(status: int, success: bool, message: string)

  /** A handler's answer together with the user collection after it. */
  datatype Registration = Registration(outcome: Result<RegisterReply, Failure>, users: seq<User>)

  /** Every stored user has a different (normalised) email: the schema's `unique` index. */
  predicate UniqueEmails(users: seq<User>) {
    forall i, j :: 0 <= i < j < |users| ==> users[i].email != users[j].email
  }

  /** `register`. `id` and `now` are the new document's `_id` and creation time. */
  function Register(name: string, email: string, password: string, role: Option<string>, users: seq<User>,
                    id: Id, now: Instant, hash: string -> string): (r: Registration)
    ensures name == "" || email == "" || password == "" ==> r.outcome == Err(Reject(RegisterFieldsMissing, 400))
    ensures name != "" && email != "" && password != "" && FindUserByEmail(users, email).Some? ==>
              r.outcome == Err(Reject(EmailTaken, 400))
    ensures r.outcome.Err? ==> r.users == users
    ensures r.outcome.Ok? <==> name != "" && email != "" && password != "" && FindUserByEmail(users, email).None?
                               && NewUser(id, name, email, password, role, now, hash).Ok?
    ensures r.outcome.Ok? ==> r.outcome.value == RegisterReply(201, true, Registered)
    ensures r.outcome.Ok? ==> |r.users| == |users| + 1 && r.users[..|users|] == users
    ensures r.outcome.Ok? ==> var u := r.users[|users|];
      u.id == id && u.email == NormalizeEmail(email) && u.name == Trim(name) && u.password == hash(password)
      && u.role == (if role.Some? then ParseRole(role.value).value else DefaultRole) && u.interests == []
  {
    if name == "" || email == "" || password == "" then Registration(Err(Reject(RegisterFieldsMissing, 400)), users)
    else if FindUserByEmail(users, email).Some? then Registration(Err(Reject(EmailTaken, 400)), users)
    else
      match NewUser(id, name, email, password, role, now, hash)
      case Err(errs) => Registration(Err(Invalid(UserValidationFailed, errs)), users)
      case Ok(u) => Registration(Ok(RegisterReply(201, true, Registered)), users + [u])
  }

  /** Registering never lets two users share an email. */
  lemma RegisterKeepsEmailsUnique(name: string, email: string, password: string, role: Option<string>, users: seq<User>,
                                  id: Id, now: Instant, hash: string -> string)
    requires UniqueEmails(users)
    ensures UniqueEmails(Register(name, email, password, role, users, id, now, hash).users)
  {
    var r := Register(name, email, password, role, users, id, now, hash);
    if r.outcome.Ok? {
      RegisteredUser(name, email, password, role, users, id, now, hash);
      AppendFreshEmail(users, r.users[|users|]);
    }
  }

  /** Appending a user whose address no stored user has keeps the addresses unique. */
  lemma AppendFreshEmail(users: seq<User>, u: User)
    requires UniqueEmails(users)
    requires forall v :: v in users ==> v.email != u.email
    ensures UniqueEmails(users + [u])
  {
    var after := users + [u];
    forall i, j | 0 <= i < j < |after| ensures after[i].email != after[j].email {
      assert after[i] == users[i];
      if j < |users| {
        assert after[j] == users[j];
      } else {
        assert users[i] in users;
      }
    }
  }

  /** A schema failure during registration reaches the client as a 500. */
  lemma RegisterInvalidIsServerError(name: string, email: string, password: string, role: Option<string>, users: seq<User>,
                                     id: Id, now: Instant, hash: string -> string, production: bool, stack: string)
    requires name != "" && email != "" && password != "" && FindUserByEmail(users, email).None?
    requires NewUser(id, name, email, password, role, now, hash).Err?
    ensures HandleError(Register(name, email, password, role, users, id, now, hash).outcome.error, production, stack).status == 500
  {
  }

  datatype LoginReply = LoginReply(status: int, success: bool, token: string, user: UserSummary)

  /** `user.getSignedJwtToken()`: signs `{ id }` with the secret and the expiry, or throws
      a plain error when either setting is missing. */
  function SignedToken(u: User, secret: string, expire: string, sign: (Id, string, string) -> string): (r: Result<string, Failure>)
    ensures r.Ok? <==> secret != "" && expire != ""
    ensures r.Ok? ==> r.value == sign(u.id, secret, expire)
    ensures r.Err? ==> r.error == Crash(JwtNotConfigured)
  {
    if secret == "" || expire == "" then Err(Crash(JwtNotConfigured)) else Ok(sign(u.id, secret, expire))
  }

  /** `sendTokenResponse(user, statusCode, res)`. */
  function SendTokenResponse(u: User, statusCode: int, secret: string, expire: string, sign: (Id, string, string) -> string): (r: Result<LoginReply, Failure>)
    ensures r.Ok? <==> secret != "" && expire != ""
    ensures r.Ok? ==> r.value == LoginReply(statusCode, true, sign(u.id, secret, expire), Summary(u))
    ensures r.Err? ==> r.error == Crash(JwtNotConfigured)
  {
    var token :- SignedToken(u, secret, expire, sign);
    Ok(LoginReply(statusCode, true, token, Summary(u)))
  }

  /** `login`. */
  function Login(email: string, password: string, users: seq<User>, compare: (string, string) -> bool,
                 secret: string, expire: string, sign: (Id, string, string) -> string): (r: Result<LoginReply, Failure>)
    ensures email == "" || password == "" ==> r == Err(Reject(LoginFieldsMissing, 400))
    ensures email != "" && password != "" && FindUserByEmail(users, email).None? ==> r == Err(Reject(InvalidCredentials, 401))
    ensures email != "" && password != "" && FindUserByEmail(users, email).Some?
            && !MatchPassword(Some(FindUserByEmail(users, email).value.password), password, compare) ==>
              r == Err(Reject(InvalidCredentials, 401))
    ensures r.Ok? <==> email != "" && password != "" && FindUserByEmail(users, email).Some?
                       && MatchPassword(Some(FindUserByEmail(users, email).value.password), password, compare)
                       && secret != "" && expire != ""
    ensures (&& email != "" && password != "" && FindUserByEmail(users, email).Some?
             && MatchPassword(Some(FindUserByEmail(users, email).value.password), password, compare)
             && (secret == "" || expire == "")) ==> r == Err(Crash(JwtNotConfigured))
    ensures r.Ok? ==> r.value.status == 200 && r.value.success
    ensures r.Ok? ==> exists u :: u in users && u.email == NormalizeEmail(email)
                                && r.value.user == Summary(u) && r.value.token == sign(u.id, secret, expire)
  {
    if email == "" || password == "" then Err(Reject(LoginFieldsMissing, 400))
    else
      match FindUserByEmail(users, email)
      case None => Err(Reject(InvalidCredentials, 401))
      case Some(u) =>
        if !MatchPassword(Some(u.password), password, compare) then Err(Reject(InvalidCredentials, 401))
        else SendTokenResponse(u, 200, secret, expire, sign)
  }

  /** With the right credentials but no JWT secret or expiry configured, signing throws a
      plain error, which the error handler answers with 500. */
  lemma LoginUnconfiguredIsServerError(email: string, password: string, users: seq<User>, compare: (string, string) -> bool,
                                       secret: string, expire: string, sign: (Id, string, string) -> string,
                                       production: bool, stack: string)
    requires email != "" && password != "" && FindUserByEmail(users, email).Some?
    requires MatchPassword(Some(FindUserByEmail(users, email).value.password), password, compare)
    requires secret == "" || expire == ""
    ensures Login(email, password, users, compare, secret, expire, sign).Err?
    ensures HandleError(Login(email, password, users, compare, secret, expire, sign).error, production, stack).status == 500
    ensures HandleError(Login(email, password, users, compare, secret, expire, sign).error, production, stack).body.error == JwtNotConfigured
  {
  }

  /** An unknown email and a wrong password are indistinguishable to the client. */
  lemma LoginHidesWhichCheckFailed(email1: string, email2: string, password: string, users: seq<User>,
                                   compare: (string, string) -> bool, secret: string, expire: string, sign: (Id, string, string) -> string)
    requires email1 != "" && email2 != "" && password != ""
    requires FindUserByEmail(users, email1).None?
    requires FindUserByEmail(users, email2).Some?
    requires !compare(password, FindUserByEmail(users, email2).value.password)
    ensures Login(email1, password, users, compare, secret, expire, sign) == Login(email2, password, users, compare, secret, expire, sign)
  {
  }

  /** Registering and then logging in with the same address (in any letter case) and
      password succeeds when the hash check accepts the password, and the summary shows
      the new user. */
  lemma RegisterThenLogin(name: string, email: string, password: string, role: Option<string>, users: seq<User>,
                          id: Id, now: Instant, hash: string -> string, compare: (string, string) -> bool,
                          loginEmail: string, secret: string, expire: string, sign: (Id, string, string) -> string)
    requires Register(name, email, password, role, users, id, now, hash).outcome.Ok?
    requires loginEmail != "" && NormalizeEmail(loginEmail) == NormalizeEmail(email)
    requires hash(password) != "" && compare(password, hash(password))
    requires secret != "" && expire != ""
    ensures var after := Register(name, email, password, role, users, id, now, hash).users;
      && Login(loginEmail, password, after, compare, secret, expire, sign).Ok?
      && Login(loginEmail, password, after, compare, secret, expire, sign).value.user == Summary(after[|users|])
  {
    var after := Register(name, email, password, role, users, id, now, hash).users;
    RegisteredUser(name, email, password, role, users, id, now, hash);
    SameAddressNotTaken(users, email, loginEmail);
    LoginAfterAppend(users, after[|users|], loginEmail, password, compare, secret, expire, sign);
  }

  /** Addresses that normalise alike find the same stored user. */
  lemma SameAddressNotTaken(users: seq<User>, email: string, loginEmail: string)
    requires FindUserByEmail(users, email).None? && NormalizeEmail(loginEmail) == NormalizeEmail(email)
    ensures FindUserByEmail(users, loginEmail).None?
  {
  }

  /** A successful registration appends one user, with the normalised address and the
      hashed password, to a store that had no user with that address. */
  lemma RegisteredUser(name: string, email: string, password: string, role: Option<string>, users: seq<User>,
                       id: Id, now: Instant, hash: string -> string)
    requires Register(name, email, password, role, users, id, now, hash).outcome.Ok?
    ensures var after := Register(name, email, password, role, users, id, now, hash).users;
      && |after| == |users| + 1 && after == users + [after[|users|]]
      && after[|users|].email == NormalizeEmail(email) && after[|users|].password == hash(password)
      && FindUserByEmail(users, email).None?
  {
    var after := Register(name, email, password, role, users, id, now, hash).users;
    assert after == after[..|users|] + [after[|users|]];
  }

  /** Logging in to a store that gained a user with the address and the password signs in
      that user. */
  lemma LoginAfterAppend(users: seq<User>, u: User, email: string, password: string, compare: (string, string) -> bool,
                         secret: string, expire: string, sign: (Id, string, string) -> string)
    requires email != "" && password != "" && secret != "" && expire != ""
    requires FindUserByEmail(users, email).None? && u.email == NormalizeEmail(email)
    requires u.password != "" && compare(password, u.password)
    ensures Login(email, password, users + [u], compare, secret, expire, sign) == Ok(LoginReply(200, true, sign(u.id, secret, expire), Summary(u)))
  {
    FindByEmailAppend(users, u, email);
    LoginFinds(email, password, users + [u], u, compare, secret, expire, sign);
  }

  /** Login with the address of a stored user and the right password signs that user in. */
  lemma LoginFinds(email: string, password: string, users: seq<User>, u: User, compare: (string, string) -> bool,
                   secret: string, expire: string, sign: (Id, string, string) -> string)
    requires email != "" && password != "" && FindUserByEmail(users, email) == Some(u)
    requires u.password != "" && compare(password, u.password)
    requires secret != "" && expire != ""
    ensures Login(email, password, users, compare, secret, expire, sign) == Ok(LoginReply(200, true, sign(u.id, secret, expire), Summary(u)))
  {
  }

  /** Looking up an address that no earlier user has finds the appended user. */
  lemma {:induction false} FindByEmailAppend(users: seq<User>, u: User, email: string)
    requires FindUserByEmail(users, email).None? && u.email == NormalizeEmail(email)
    ensures FindUserByEmail(users + [u], email) == Some(u)
  {
    if |users| > 0 {
      assert (users + [u])[1..] == users[1..] + [u];
      FindByEmailAppend(users[1..], u, email);
    } else {
      assert users + [u] == [u];
    }
  }

  datatype MeReply = MeReply(status: int, success: bool, user: UserSummary)

  /** `getMe` for the signed-in user's id. */
  function GetMe(userId: Id, users: seq<User>): (r: Result<MeReply, Failure>)
    ensures r.Err? <==> forall u :: u in users ==> u.id != userId
    ensures r.Err? ==> r.error == Reject(UserMissing, 404)
    ensures r.Ok? ==> r.value.status == 200 && r.value.success && r.value.user.id == userId
    ensures r.Ok? ==> exists u :: u in users && u.id == userId && r.value.user == Summary(u)
  {
    match FindUser(users, userId)
    case None => Err(Reject(UserMissing, 404))
    case Some(u) => Ok(MeReply(200, true, Summary(u)))
  }

  /** After a login, `getMe` with the same user's id shows the same summary. */
  lemma LoginThenGetMe(email: string, password: string, users: seq<User>, compare: (string, string) -> bool,
                       secret: string, expire: string, sign: (Id, string, string) -> string)
    requires UniqueUserIds(users)
    requires Login(email, password, users, compare, secret, expire, sign).Ok?
    ensures var summary := Login(email, password, users, compare, secret, expire, sign).value.user;
      GetMe(summary.id, users) == Ok(MeReply(200, true, summary))
  {
    var u := FindUserByEmail(users, email).value;
    FindUserUnique(users, u);
  }

  /** Distinct ids: the user store's `_id` index. */
  predicate UniqueUserIds(users: seq<User>) {
    forall i, j :: 0 <= i < j < |users| ==> users[i].id != users[j].id
  }

  lemma {:induction false} FindUserUnique(users: seq<User>, u: User)
    requires UniqueUserIds(users) && u in users
    ensures FindUser(users, u.id) == Some(u)
  {
    if users[0] != u {
      assert u in users[1..];
      FindUserUnique(users[1..], u);
    }
  }
}

=== FILE: auth_middleware.dfy ===
/** Route guards (`middleware/authMiddleware.js`): `protect`, which turns a bearer token
    into the signed-in user, and `authorize`, which admits only listed roles. Signature
    checking is the foreign `verify`; the secret is the `JWT_SECRET` setting, with the
    empty string standing for "not set". */
module AuthMiddleware {
  import opened Wrappers
  import opened Identity
  import opened Text
  import opened Errors
  import opened UserModel
  import opened Queries

  const BearerPrefix := "Bearer "

  const NoToken := "Not authorized, no token provided"
  const InvalidSignature := "Not authorized, invalid token signature"
  const TokenExpired := "Not authorized, token has expired"
  const VerificationFailed := "Not authorized, token verification failed"
  const MissingSecret := "Server configuration error: Cannot verify token"
  const UserGone := "Not authorized, user associated with this token no longer exists"
  const UserNotFound := "Not authorized, user not found"

  /** Names of the errors the token library throws. */
  const JsonWebTokenError := "JsonWebTokenError"
  const TokenExpiredError := "TokenExpiredError"

  /** The outcome of `jwt.verify(token, secret)`: the payload's `id`, or the name of the
      error it throws. */
  datatype Verified = Decoded(id: Id) | VerifyError(name: string)

  /** `req.user`: the user document fetched with `select('-password')`. */
  datatype Principal = Principal(id: Id, name: string, email: string, role: Role, interests: seq<string>, createdAt: Instant)

  function PrincipalOf(u: User): (p: Principal)
    ensures p.id == u.id && p.name == u.name && p.email == u.email && p.role == u.role
    ensures p.interests == u.interests && p.createdAt == u.createdAt
  {
    Principal(u.id, u.name, u.email, u.role, u.interests, u.createdAt)
  }

  /** The header is present and starts with the exact prefix `Bearer `. */
  predicate HasBearer(header: Option<string>) {
    header.Some? && StartsWith(header.value, BearerPrefix)
  }

  /** `authorization.split(' ')[1]`: the text after `Bearer ` up to the next space. */
  function BearerToken(header: string): (token: string)
    requires StartsWith(header, BearerPrefix)
    ensures ' ' !in token
    ensures StartsWith(header[|BearerPrefix|..], token)
    ensures |BearerPrefix| + |token| == |header| || header[|BearerPrefix| + |token|] == ' '
  {
    assert header[..7] == BearerPrefix;
    assert header[6] == ' ' && ' ' !in header[..6];
    assert FirstIndex(header, ' ') == 6;
    var rest := header[|BearerPrefix|..];
    var parts := Split(header, ' ');
    assert parts == [header[..6]] + Split(rest, ' ');
    if ' ' in rest then
      var k := FirstIndex(rest, ' ');
      assert parts[1] == rest[..k];
      parts[1]
    else
      assert parts[1] == rest;
      parts[1]
  }

  /** An error raised inside the `try` block: one the handler throws itself (a plain
      `Error`) or one the token library throws, known by its name. */
  datatype Raised = OwnError(failure: Failure) | LibraryError(name: string)

  function ErrorName(e: Raised): string {
    match e
    case OwnError(_) => "Error"
    case LibraryError(name) => name
  }

  /** What `verify` gives for a token; the library refuses an empty token as malformed. */
  function VerifyToken(token: string, secret: string, verify: (string, string) -> Verified): Verified {
    if token == "" then VerifyError(JsonWebTokenError) else verify(token, secret)
  }

  /** The body of the `try` block: secret check, verification, user lookup. */
  function TryAuthenticate(token: string, secret: string, verify: (string, string) -> Verified, users: seq<User>): (r: Result<Principal, Raised>)
    ensures secret == "" ==> r == Err(OwnError(Throw(MissingSecret, 500)))
    ensures r.Ok? <==> secret != "" && VerifyToken(token, secret, verify).Decoded?
                       && FindUser(users, VerifyToken(token, secret, verify).id).Some?
    ensures r.Ok? ==> r.value == PrincipalOf(FindUser(users, VerifyToken(token, secret, verify).id).value)
    ensures secret != "" && VerifyToken(token, secret, verify).VerifyError? ==>
              r == Err(LibraryError(VerifyToken(token, secret, verify).name))
    ensures (secret != "" && VerifyToken(token, secret, verify).Decoded?
             && FindUser(users, VerifyToken(token, secret, verify).id).None?) ==> r == Err(OwnError(Throw(UserGone, 401)))
  {
    if secret == "" then Err(OwnError(Throw(MissingSecret, 500)))
    else
      match VerifyToken(token, secret, verify)
      case VerifyError(name) => Err(LibraryError(name))
      case Decoded(id) =>
        match FindUser(users, id)
        case None => Err(OwnError(Throw(UserGone, 401)))
        case Some(u) => Ok(PrincipalOf(u))
  }

  /** The `catch` block: the error's name alone picks the message; the status is always 401. */
  function Caught(name: string): (f: Failure)
    ensures f.err.statusCode.None? && f.resStatus == 401
    ensures name == JsonWebTokenError ==> f.err.message == InvalidSignature
    ensures name == TokenExpiredError ==> f.err.message == TokenExpired
    ensures name != JsonWebTokenError && name != TokenExpiredError ==> f.err.message == VerificationFailed
  {
    if name == JsonWebTokenError then Throw(InvalidSignature, 401)
    else if name == TokenExpiredError then Throw(TokenExpired, 401)
    else Throw(VerificationFailed, 401)
  }

  /** `protect` as written: every error raised inside the `try`, its own included, is
      replaced by the one the `catch` block picks from the error's name. */
  function Protect(header: Option<string>, secret: string, verify: (string, string) -> Verified, users: seq<User>): (r: Result<Principal, Failure>)
    ensures !HasBearer(header) ==> r == Err(Throw(NoToken, 401))
    ensures r.Ok? <==> HasBearer(header) && TryAuthenticate(BearerToken(header.value), secret, verify, users).Ok?
    ensures r.Ok? ==> r.value == TryAuthenticate(BearerToken(header.value), secret, verify, users).value
    ensures r.Err? ==> r.error.resStatus == 401 && r.error.err.statusCode.None?
    ensures r.Err? ==> r.error.err.message in {NoToken, InvalidSignature, TokenExpired, VerificationFailed}
    ensures HasBearer(header) && secret != "" && VerifyToken(BearerToken(header.value), secret, verify).VerifyError? ==>
              r == Err(Caught(VerifyToken(BearerToken(header.value), secret, verify).name))
  {
    if !HasBearer(header) then Err(Throw(NoToken, 401))
    else
      match TryAuthenticate(BearerToken(header.value), secret, verify, users)
      case Ok(p) => Ok(p)
      case Err(e) => Err(Caught(ErrorName(e)))
  }

  /** `protect` as its own checks evidently intend: the configuration error keeps its 500
      and its message, the vanished-user error keeps its message; only the token library's
      errors are translated by name. */
  function ProtectIntended(header: Option<string>, secret: string, verify: (string, string) -> Verified, users: seq<User>): (r: Result<Principal, Failure>)
    ensures !HasBearer(header) ==> r == Err(Throw(NoToken, 401))
    ensures HasBearer(header) && secret == "" ==> r == Err(Throw(MissingSecret, 500))
    ensures r.Ok? <==> Protect(header, secret, verify, users).Ok?
  {
    if !HasBearer(header) then Err(Throw(NoToken, 401))
    else
      match TryAuthenticate(BearerToken(header.value), secret, verify, users)
      case Ok(p) => Ok(p)
      case Err(OwnError(f)) => Err(f)
      case Err(LibraryError(name)) => Err(Caught(name))
  }

  /** A signed-in request reaches the handler with the stored user whose id the token
      carries, minus the password. */
  lemma ProtectAdmits(header: Option<string>, secret: string, verify: (string, string) -> Verified, users: seq<User>)
    requires Protect(header, secret, verify, users).Ok?
    ensures var token := BearerToken(header.value);
      && token != "" && verify(token, secret).Decoded?
      && exists u :: u in users && u.id == verify(token, secret).id
                  && Protect(header, secret, verify, users).value == PrincipalOf(u)
  {
    var token := BearerToken(header.value);
    var u := FindUser(users, verify(token, secret).id).value;
    assert u in users;
  }

  /** A token the library reports as expired is answered "token has expired"; one it
      reports as malformed or badly signed, the empty token included, "invalid token
      signature"; any other library error the generic message. All three answer 401. */
  lemma LibraryErrorsByName(header: Option<string>, secret: string, verify: (string, string) -> Verified, users: seq<User>)
    requires HasBearer(header) && secret != ""
    ensures var v := VerifyToken(BearerToken(header.value), secret, verify);
      && (v == VerifyError(TokenExpiredError) ==> Protect(header, secret, verify, users) == Err(Throw(TokenExpired, 401)))
      && (v == VerifyError(JsonWebTokenError) ==> Protect(header, secret, verify, users) == Err(Throw(InvalidSignature, 401)))
      && (v.VerifyError? && v.name != TokenExpiredError && v.name != JsonWebTokenError ==>
            Protect(header, secret, verify, users) == Err(Throw(VerificationFailed, 401)))
    ensures BearerToken(header.value) == "" ==> Protect(header, secret, verify, users) == Err(Throw(InvalidSignature, 401))
  {
  }

  /** As written, a missing secret is answered 401 "token verification failed", not with
      the 500 configuration error the handler raises. */
  lemma MissingSecretAnswered401(header: Option<string>, verify: (string, string) -> Verified, users: seq<User>, production: bool, stack: string)
    requires HasBearer(header)
    ensures Protect(header, "", verify, users) == Err(Throw(VerificationFailed, 401))
    ensures HandleError(Protect(header, "", verify, users).error, production, stack).status == 401
  {
  }

  /** As written, a valid token of a deleted user is answered with the generic
      "token verification failed", not the vanished-user message. */
  lemma DeletedUserAnsweredGeneric(header: Option<string>, secret: string, verify: (string, string) -> Verified, users: seq<User>)
    requires HasBearer(header) && secret != ""
    requires VerifyToken(BearerToken(header.value), secret, verify).Decoded?
    requires FindUser(users, VerifyToken(BearerToken(header.value), secret, verify).id).None?
    ensures Protect(header, secret, verify, users) == Err(Throw(VerificationFailed, 401))
    ensures ProtectIntended(header, secret, verify, users) == Err(Throw(UserGone, 401))
  {
  }

  /** The intended guard answers a missing secret with 500 and its own message. */
  lemma IntendedMissingSecretIs500(header: Option<string>, verify: (string, string) -> Verified, users: seq<User>, production: bool, stack: string)
    requires HasBearer(header)
    ensures HandleError(ProtectIntended(header, "", verify, users).error, production, stack).status == 500
    ensures HandleError(ProtectIntended(header, "", verify, users).error, production, stack).body.error == MissingSecret
  {
  }

  /** The two versions differ only on the handler's own two errors. */
  lemma ProtectVersionsAgree(header: Option<string>, secret: string, verify: (string, string) -> Verified, users: seq<User>)
    requires HasBearer(header) ==> secret != ""
    requires HasBearer(header) && VerifyToken(BearerToken(header.value), secret, verify).Decoded? ==>
               FindUser(users, VerifyToken(BearerToken(header.value), secret, verify).id).Some?
    ensures Protect(header, secret, verify, users) == ProtectIntended(header, secret, verify, users)
  {
  }

  /** `authorize(...roles)`: `None` lets the request through. */
  function Authorize(roles: seq<string>, user: Option<Principal>): (denial: Option<Failure>)
    ensures user.None? ==> denial == Some(Throw(UserNotFound, 401))
    ensures user.Some? ==> (denial.None? <==> RoleName(user.value.role) in roles)
    ensures user.Some? && denial.Some? ==> denial.value == Throw(Forbidden(user.value.role), 403)
  {
    if user.None? then Some(Throw(UserNotFound, 401))
    else if RoleName(user.value.role) !in roles then Some(Throw(Forbidden(user.value.role), 403))
    else None
  }

  function Forbidden(role: Role): string {
    "Forbidden: User role '" + RoleName(role) + "' is not authorized to access this resource"
  }

  /** `authorize('admin')` admits exactly administrators. */
  lemma AdminOnly(p: Principal)
    ensures Authorize(["admin"], Some(p)).None? <==> p.role == Admin
  {
  }

  /** `protect, authorize('admin')`, the guard of the content write routes. */
  function AdminGuard(header: Option<string>, secret: string, verify: (string, string) -> Verified, users: seq<User>): (r: Result<Principal, Failure>)
    ensures r.Ok? ==> r.value.role == Admin
  {
    match Protect(header, secret, verify, users)
    case Err(f) => Err(f)
    case Ok(p) =>
      match Authorize(["admin"], Some(p))
      case Some(f) => Err(f)
      case None => Ok(p)
  }

  /** The admin guard admits a request exactly when its token names a stored administrator. */
  lemma AdminGuardAdmits(header: Option<string>, secret: string, verify: (string, string) -> Verified, users: seq<User>)
    ensures AdminGuard(header, secret, verify, users).Ok? <==>
      HasBearer(header) && secret != "" && VerifyToken(BearerToken(header.value), secret, verify).Decoded?
      && exists u :: u in users && u.id == VerifyToken(BearerToken(header.value), secret, verify).id && u.role == Admin
              && FindUser(users, u.id) == Some(u)
  {
    if AdminGuard(header, secret, verify, users).Ok? {
      var token := BearerToken(header.value);
      var u := FindUser(users, VerifyToken(token, secret, verify).id).value;
      AdminOnly(PrincipalOf(u));
    }
  }
}

=== FILE: chatbot.dfy ===
/** The keyword chatbot (`controllers/chatbotController.js`): validates the message,
    trims and lower-cases it, and answers with the reply of the first keyword, in table
    order, that occurs in it as a substring. */
module Chatbot {
  import opened Wrappers
  import opened Text
  import opened Errors

  /** `req.body.message`: missing (or another falsy value), some other non-string, or a string. */
  datatype MessageField = Absent | NonString | Str(text: string)

  const MessageRequired := "Message is required and must be a non-empty string"
  const Apology := "I'm sorry, I can only answer basic questions right now."
  const BasicKeywords := "basic_keywords"
  const Disclaimer := "Please note: I am an AI assistant. Information may not be 100% factual and should be used as a reference only."

  datatype Rule = Rule(keyword: string, reply: string)

  /** The keyword table, in the insertion order `for...in` walks it. */
  const Rules: seq<Rule> := [
    Rule("hello", "Hello! How can I help you today?"),
    Rule("hi", "Hi there! What can I do for you?"),
    Rule("recommend", "You can find AI-recommended content on your dashboard."),
    Rule("content", "Browse available content from the main dashboard or search."),
    Rule("help", "You can browse content or check your dashboard. For technical issues, please contact support@example.com."),
    Rule("support", "For technical support, please email support@example.com."),
    Rule("privacy", "We use your data to personalize your learning. See our Privacy Policy for details."),
    Rule("bye", "Goodbye! Have a great day."),
    Rule("thank", "You're welcome!")
  ]

  datatype ChatReply = ChatReply(success: bool, query: string, response: string, source: string, disclaimer: string)

  /** The index of the first rule whose keyword occurs in `text`, if any. */
  function FirstMatch(rules: seq<Rule>, text: string): (r: Option<nat>)
    ensures r.Some? ==> r.value < |rules| && Contains(text, rules[r.value].keyword)
    ensures r.Some? ==> forall j :: 0 <= j < r.value ==> !Contains(text, rules[j].keyword)
    ensures r.None? <==> forall j :: 0 <= j < |rules| ==> !Contains(text, rules[j].keyword)
  {
    if |rules| == 0 then None
    else if Contains(text, rules[0].keyword) then Some(0)
    else match FirstMatch(rules[1..], text)
      case None => None
      case Some(k) => Some(k + 1)
  }

  /** The reply for an already trimmed and lower-cased message. */
  function Respond(lowered: string): (response: string)
    ensures Answers(lowered, response)
  {
    match FirstMatch(Rules, lowered)
    case None => Apology
    case Some(k) => Rules[k].reply
  }

  /** `response` is the reply of the first rule whose keyword occurs in `lowered`, or
      the apology when none does. */
  predicate Answers(lowered: string, response: string) {
    || (response == Apology && forall j :: 0 <= j < |Rules| ==> !Contains(lowered, Rules[j].keyword))
    || (exists i :: 0 <= i < |Rules| && response == Rules[i].reply && Contains(lowered, Rules[i].keyword)
          && forall j :: 0 <= j < i ==> !Contains(lowered, Rules[j].keyword))
  }

  predicate ValidMessage(message: MessageField) {
    message.Str? && Trim(message.text) != []
  }

  function HandleChat(message: MessageField): (r: Result<ChatReply, Failure>)
    ensures r.Ok? <==> ValidMessage(message)
    ensures r.Err? ==> r.error == Reject(MessageRequired, 400)
    ensures r.Ok? ==> r.value.success && r.value.query == Trim(message.text)
    ensures r.Ok? ==> r.value.source == BasicKeywords && r.value.disclaimer == Disclaimer
    ensures r.Ok? ==> Answers(ToLower(r.value.query), r.value.response)
  {
    if !ValidMessage(message) then Err(Reject(MessageRequired, 400))
    else
      var query := Trim(message.text);
      Ok(ChatReply(true, query, Respond(ToLower(query)), BasicKeywords, Disclaimer))
  }

  /** Matching ignores case: a message and its lower-cased form get the same reply. */
  lemma ReplyIgnoresCase(text: string)
    ensures HandleChat(Str(text)).Ok? == HandleChat(Str(ToLower(text))).Ok?
    ensures HandleChat(Str(text)).Ok? ==> HandleChat(Str(text)).value.response == HandleChat(Str(ToLower(text))).value.response
  {
    TrimLower(text);
    ToLowerIdempotent(Trim(text));
    TrimEmptyIff(text);
    TrimEmptyIff(ToLower(text));
  }

  /** Keywords match anywhere, even inside other words: "this" contains "hi". */
  lemma KeywordInsideWord()
    ensures Respond("this") == "Hi there! What can I do for you?"
  {
    assert Contains("this", "hi") by {
      assert "this"[1..] == "his";
    }
    assert !Contains("this", "hello");
    assert FirstMatch(Rules, "this") == Some(1);
  }

  /** Table order decides, not position in the message: "hi hello" gets the reply of
      "hello", the first keyword of the table. */
  lemma TableOrderWins()
    ensures Respond("hi hello") == "Hello! How can I help you today?"
  {
    assert Contains("hi hello", "hello") by {
      ContainsIff("hi hello", "hello");
      assert OccursAt("hi hello", "hello", 3);
    }
    assert FirstMatch(Rules, "hi hello") == Some(0);
  }

  /** A message of whitespace only is refused like a missing one. */
  lemma BlankMessageRejected(text: string)
    requires forall i :: 0 <= i < |text| ==> IsWhitespace(text[i])
    ensures HandleChat(Str(text)) == Err(Reject(MessageRequired, 400))
  {
    TrimEmptyIff(text);
  }
}

=== FILE: content_controller.dfy ===
/** Content handlers (`controllers/contentController.js`): list, fetch, create, update
    and delete over the catalog, a sequence of items in natural order. `id` and `now` for
    a new item are the identifier the store assigns and the current time. */
module ContentController {
  import opened Wrappers
  import opened Identity
  import opened Seqs
  import opened Sorting
  import opened Errors
  import opened Validation
  import opened ContentModel
  import opened Queries

  const FieldsMissing := "Please provide title, description, and type"
  const DeletedMessage := "Content deleted successfully"
  const ContentValidationFailed := "Content validation failed"
  const UpdateValidationFailed := "Validation failed"

  function NotFound(id: Id): Failure {
    Reject("Content not found with id of " + id, 404)
  }

  datatype Body = Listing(count: nat, items: seq<Content>) | Single(item: Content) | Removed(message: string)

  datatype Reply = Reply(status: int, success: bool, body: Body)

  /** A handler's answer together with the catalog after it. */
  datatype Answer = Answer(outcome: Result<Reply, Failure>, store: seq<Content>)

  /** What the store guarantees: unique ids, and every item within the schema's rules. */
  predicate StoreValid(store: seq<Content>) {
    UniqueIds(store) && forall c :: c in store ==> Valid(c)
  }

  /** `getAllContent`: every item, newest `createdAt` first. */
  function GetAllContent(store: seq<Content>): (r: Reply)
    ensures r.status == 200 && r.success && r.body.Listing?
    ensures r.body.count == |r.body.items| == |store|
    ensures multiset(r.body.items) == multiset(store)
    ensures SortedDesc(r.body.items, CreatedAt)
  {
    var items := NewestFirst(store);
    Reply(200, true, Listing(|items|, items))
  }

  /** `getContentById`. */
  function GetContentById(id: Id, store: seq<Content>): (r: Result<Reply, Failure>)
    ensures r.Err? <==> forall c :: c in store ==> c.id != id
    ensures r.Err? ==> r.error == NotFound(id)
    ensures r.Ok? ==> r.value.status == 200 && r.value.success && r.value.body.Single?
    ensures r.Ok? ==> r.value.body.item in store && r.value.body.item.id == id
  {
    IdsMember(store, id);
    match FindContent(store, id)
    case None => Err(NotFound(id))
    case Some(c) => Ok(Reply(200, true, Single(c)))
  }

  /** JavaScript truthiness of an optional string field. */
  predicate Given(field: Option<string>) {
    field.Some? && field.value != ""
  }

  /** The five body fields `createContent` passes on; every other field is dropped. */
  function CreateFields(body: ContentFields): (f: ContentFields)
    ensures f.title == body.title && f.description == body.description && f.kind == body.kind
    ensures f.url == body.url && f.tags == body.tags
    ensures f.filePath.None? && f.durationMinutes.None? && f.createdBy.None?
    ensures f.createdAt.None? && f.updatedAt.None?
  {
    ContentFields(body.title, body.description, body.kind, body.url, None, body.tags, None, None, None, None)
  }

  /** `createContent`. */
  function CreateContent(body: ContentFields, store: seq<Content>, id: Id, now: Instant): (r: Answer)
    ensures !Given(body.title) || !Given(body.description) || !Given(body.kind) ==>
              r.outcome == Err(Reject(FieldsMissing, 400))
    ensures r.outcome.Err? ==> r.store == store
    ensures r.outcome.Ok? <==> Given(body.title) && Given(body.description) && Given(body.kind)
                               && CreateErrors(CreateFields(body)) == []
    ensures r.outcome.Ok? ==> r.outcome.value.status == 201 && r.outcome.value.success && r.outcome.value.body.Single?
    ensures r.outcome.Ok? ==> r.store == store + [r.outcome.value.body.item]
    ensures r.outcome.Ok? ==> NewContent(id, CreateFields(body), now) == Ok(r.outcome.value.body.item)
  {
    if !Given(body.title) || !Given(body.description) || !Given(body.kind) then
      Answer(Err(Reject(FieldsMissing, 400)), store)
    else
      var made := NewContent(id, CreateFields(body), now);
      if made.Err? then Answer(Err(Invalid(ContentValidationFailed, made.error)), store)
      else Answer(Ok(Reply(201, true, Single(made.value))), store + [made.value])
  }

  /** The created item is valid, carries the new id, the given url and tags (none by
      default), no creator, and the current time as both timestamps. */
  lemma CreatedItem(body: ContentFields, store: seq<Content>, id: Id, now: Instant)
    requires CreateContent(body, store, id, now).outcome.Ok?
    ensures var c := CreateContent(body, store, id, now).outcome.value.body.item;
      && Valid(c) && c.id == id && c.createdBy.None? && c.filePath.None? && c.durationMinutes.None?
      && c.url == body.url && c.tags == body.tags.GetOr([]) && c.createdAt == now && c.updatedAt == now
  {
  }

  /** Fields other than title, description, type, url and tags make no difference. */
  lemma CreateIgnoresOtherFields(body1: ContentFields, body2: ContentFields, store: seq<Content>, id: Id, now: Instant)
    requires body1.title == body2.title && body1.description == body2.description && body1.kind == body2.kind
    requires body1.url == body2.url && body1.tags == body2.tags
    ensures CreateContent(body1, store, id, now) == CreateContent(body2, store, id, now)
  {
    assert CreateFields(body1) == CreateFields(body2);
  }

  /** `deleteOne({ _id: id })`. */
  function Remove(store: seq<Content>, id: Id): (r: seq<Content>)
    ensures forall c :: c in r <==> c in store && c.id != id
    ensures multiset(r) <= multiset(store)
  {
    FilterSub(store, Outside([id]));
    Filter(store, Outside([id]))
  }

  /** The stored item with id `id` replaced by `item`, every other item kept in place. */
  function Replace(store: seq<Content>, id: Id, item: Content): (r: seq<Content>)
    ensures |r| == |store|
    ensures forall i :: 0 <= i < |store| ==> r[i] == (if store[i].id == id then item else store[i])
  {
    Map(store, (c: Content) => if c.id == id then item else c)
  }

  /** `updateContent`. */
  function UpdateContent(id: Id, body: ContentFields, store: seq<Content>): (r: Answer)
    requires StoreValid(store)
    ensures r.outcome.Err? ==> r.store == store
    ensures (forall c :: c in store ==> c.id != id) ==> r.outcome == Err(NotFound(id))
    ensures r.outcome.Ok? <==> (exists c :: c in store && c.id == id) && UpdateErrors(body) == []
    ensures r.outcome.Ok? ==> r.outcome.value.status == 200 && r.outcome.value.success && r.outcome.value.body.Single?
    ensures r.outcome.Ok? ==> FindContent(store, id).Some?
    ensures r.outcome.Ok? ==> ApplyUpdate(FindContent(store, id).value, body) == Ok(r.outcome.value.body.item)
    ensures r.outcome.Ok? ==> r.store == Replace(store, id, r.outcome.value.body.item)
  {
    IdsMember(store, id);
    match FindContent(store, id)
    case None => Answer(Err(NotFound(id)), store)
    case Some(c) =>
      match ApplyUpdate(c, body)
      case Err(errs) => Answer(Err(Invalid(UpdateValidationFailed, errs)), store)
      case Ok(updated) => Answer(Ok(Reply(200, true, Single(updated))), Replace(store, id, updated))
  }

  /** `deleteContent`. */
  function DeleteContent(id: Id, store: seq<Content>): (r: Answer)
    ensures (forall c :: c in store ==> c.id != id) <==> r.outcome == Err(NotFound(id))
    ensures r.outcome.Err? ==> r.store == store
    ensures r.outcome.Ok? ==> r.outcome.value == Reply(200, true, Removed(DeletedMessage))
    ensures r.outcome.Ok? ==> r.store == Remove(store, id)
  {
    IdsMember(store, id);
    if FindContent(store, id).None? then Answer(Err(NotFound(id)), store)
    else Answer(Ok(Reply(200, true, Removed(DeletedMessage))), Remove(store, id))
  }

  /** Replacing an item by one with the same id keeps the ids as they were. */
  lemma ReplaceKeepsIds(store: seq<Content>, id: Id, item: Content)
    requires item.id == id
    ensures Ids(Replace(store, id, item)) == Ids(store)
  {
  }

  /** Appending a valid item with a fresh id keeps the store valid and makes the item
      findable by its id. */
  lemma AppendFresh(store: seq<Content>, c: Content)
    requires StoreValid(store) && c.id !in Ids(store) && Valid(c)
    ensures StoreValid(store + [c])
    ensures FindContent(store + [c], c.id) == Some(c)
  {
    AppendKeepsIdsUnique(store, c);
    AppendKeepsValid(store, c);
    assert (store + [c])[|store|] == c;
    FindContentUnique(store + [c], c);
  }

  lemma AppendKeepsValid(store: seq<Content>, c: Content)
    requires forall x :: x in store ==> Valid(x)
    requires Valid(c)
    ensures forall x :: x in store + [c] ==> Valid(x)
  {
    forall x | x in store + [c] ensures Valid(x) {
      var i :| 0 <= i < |store| + 1 && (store + [c])[i] == x;
      if i < |store| {
        assert store[i] == x;
      }
    }
  }

  lemma AppendKeepsIdsUnique(store: seq<Content>, c: Content)
    requires UniqueIds(store) && c.id !in Ids(store)
    ensures UniqueIds(store + [c])
  {
    MapAppend(store, [c], IdOf);
    DistinctAppend(Ids(store), [c.id]);
  }


  /** A successful create keeps the store valid when the new id is fresh, and the new item
      can then be fetched. */
  lemma CreateThenGet(body: ContentFields, store: seq<Content>, id: Id, now: Instant)
    requires StoreValid(store) && id !in Ids(store)
    requires CreateContent(body, store, id, now).outcome.Ok?
    ensures var r := CreateContent(body, store, id, now);
      && StoreValid(r.store)
      && GetContentById(id, r.store) == Ok(Reply(200, true, Single(r.outcome.value.body.item)))
  {
    var r := CreateContent(body, store, id, now);
    var c := r.outcome.value.body.item;
    CreatedItem(body, store, id, now);
    AppendFresh(store, c);
  }

  /** Replacing a stored item by a valid one with the same id keeps the store valid; the
      id then finds the new item and every other id what it found before. */
  lemma ReplaceValid(store: seq<Content>, item: Content, other: Id)
    requires StoreValid(store) && item.id in Ids(store) && Valid(item) && other != item.id
    ensures StoreValid(Replace(store, item.id, item))
    ensures FindContent(Replace(store, item.id, item), item.id) == Some(item)
    ensures FindContent(Replace(store, item.id, item), other) == FindContent(store, other)
  {
    ReplaceStaysValid(store, item);
    ReplaceFindsItem(store, item);
    ReplaceFindsOther(store, item, other);
  }

  lemma ReplaceStaysValid(store: seq<Content>, item: Content)
    requires StoreValid(store) && Valid(item)
    ensures StoreValid(Replace(store, item.id, item))
  {
    var after := Replace(store, item.id, item);
    ReplaceKeepsIds(store, item.id, item);
    forall x | x in after ensures Valid(x) {
      var i :| 0 <= i < |after| && after[i] == x;
      assert store[i] in store;
    }
  }

  lemma ReplaceFindsItem(store: seq<Content>, item: Content)
    requires UniqueIds(store) && item.id in Ids(store)
    ensures FindContent(Replace(store, item.id, item), item.id) == Some(item)
  {
    var after := Replace(store, item.id, item);
    ReplaceKeepsIds(store, item.id, item);
    var k :| 0 <= k < |store| && Ids(store)[k] == item.id;
    assert after[k] == item;
    FindContentUnique(after, item);
  }

  lemma ReplaceFindsOther(store: seq<Content>, item: Content, other: Id)
    requires UniqueIds(store) && other != item.id
    ensures FindContent(Replace(store, item.id, item), other) == FindContent(store, other)
  {
    var after := Replace(store, item.id, item);
    ReplaceKeepsIds(store, item.id, item);
    match FindContent(store, other)
    case None =>
      IdsMember(store, other);
      IdsMember(after, other);
    case Some(o) =>
      var j :| 0 <= j < |store| && store[j] == o;
      assert after[j] == o;
      FindContentUnique(store, o);
      FindContentUnique(after, o);
  }


  /** A successful update keeps the store valid, the item can be fetched in its new form,
      and every other id fetches what it fetched before. */
  lemma UpdateThenGet(id: Id, body: ContentFields, store: seq<Content>, other: Id)
    requires StoreValid(store)
    requires UpdateContent(id, body, store).outcome.Ok?
    requires other != id
    ensures var r := UpdateContent(id, body, store);
      && StoreValid(r.store)
      && GetContentById(id, r.store) == Ok(r.outcome.value)
      && GetContentById(other, r.store) == GetContentById(other, store)
  {
    var r := UpdateContent(id, body, store);
    var updated := r.outcome.value.body.item;
    UpdatedItem(id, body, store);
    ReplaceValid(store, updated, other);
  }

  lemma UpdatedItem(id: Id, body: ContentFields, store: seq<Content>)
    requires StoreValid(store)
    requires UpdateContent(id, body, store).outcome.Ok?
    ensures var r := UpdateContent(id, body, store);
      && Valid(r.outcome.value.body.item) && r.outcome.value.body.item.id == id && id in Ids(store)
      && r.outcome.value == Reply(200, true, Single(r.outcome.value.body.item))
      && r.store == Replace(store, id, r.outcome.value.body.item)
  {
    var c := FindContent(store, id).value;
    IdsMember(store, id);
  }

  /** After a delete the id is gone, every other id fetches what it fetched before, and the
      store stays valid. */
  lemma DeleteThenGet(id: Id, store: seq<Content>, other: Id)
    requires StoreValid(store)
    requires DeleteContent(id, store).outcome.Ok?
    requires other != id
    ensures var r := DeleteContent(id, store);
      && StoreValid(r.store)
      && GetContentById(id, r.store) == Err(NotFound(id))
      && GetContentById(other, r.store) == GetContentById(other, store)
      && |r.store| == |store| - 1
  {
    var r := DeleteContent(id, store);
    UniqueSelection(store, Outside([id]), 0);
    var c := FindContent(store, id).value;
    RemoveCount(store, c);
    match FindContent(store, other)
    case None =>
    case Some(o) =>
      FindContentUnique(r.store, o);
  }

  /** Removing the one item with a given id shortens a store with unique ids by one. */
  lemma RemoveCount(store: seq<Content>, c: Content)
    requires UniqueIds(store) && c in store
    ensures |Remove(store, c.id)| == |store| - 1
  {
    var k :| 0 <= k < |store| && store[k] == c;
    var before, after := store[..k], store[k + 1..];
    assert store == before + [c] + after;
    KeepAll(before, c.id, store, k);
    KeepAll(after, c.id, store, k);
    FilterDropOne(before, c, after, Outside([c.id]));
  }

  /** No item outside position `k` of a store with unique ids shares the id of `store[k]`,
      so the filter on that id keeps them all. */
  lemma KeepAll(part: seq<Content>, id: Id, store: seq<Content>, k: nat)
    requires UniqueIds(store) && k < |store| && store[k].id == id
    requires part == store[..k] || part == store[k + 1..]
    ensures forall x :: x in part ==> Outside([id])(x)
  {
    forall x | x in part ensures x.id != id {
      var i :| 0 <= i < |part| && part[i] == x;
      var j := if part == store[..k] then i else k + 1 + i;
      assert store[j] == x && j != k;
      assert Ids(store)[j] == x.id && Ids(store)[k] == id;
    }
  }
}

=== FILE: content_model.dfy ===
/** The Content schema (`models/Content.js`): field rules applied when a document is created
    and when an update runs with validators. */
module ContentModel {
  import opened Wrappers
  import opened Identity
  import opened Text
  import opened Validation

  datatype ContentType = Video | Article | PDF | Quiz | Course | ExternalLink | Other

  const ContentTypeNames: seq<string> := ["Video", "Article", "PDF", "Quiz", "Course", "ExternalLink", "Other"]

  function ContentTypeName(t: ContentType): string {
    match t
    case Video => "Video"
    case Article => "Article"
    case PDF => "PDF"
    case Quiz => "Quiz"
    case Course => "Course"
    case ExternalLink => "ExternalLink"
    case Other => "Other"
  }

  /** The `enum` rule on `type`: exactly the seven names, compared case-sensitively. */
  function ParseContentType(s: string): (r: Option<ContentType>)
    ensures r.Some? <==> s in ContentTypeNames
    ensures r.Some? ==> ContentTypeName(r.value) == s
  {
    if s == "Video" then Some(Video)
    else if s == "Article" then Some(Article)
    else if s == "PDF" then Some(PDF)
    else if s == "Quiz" then Some(Quiz)
    else if s == "Course" then Some(Course)
    else if s == "ExternalLink" then Some(ExternalLink)
    else if s == "Other" then Some(Other)
    else None
  }

  lemma ContentTypeRoundTrip(t: ContentType)
    ensures ParseContentType(ContentTypeName(t)) == Some(t)
  {
  }

  const MaxTitleLength := 150

  const TitleRequired := "Please add a title"
  const TitleTooLong := "Title cannot be more than 150 characters"
  const DescriptionRequired := "Please add a description"
  const TypeRequired := "Please specify content type"

  datatype Content = Content(
    id: Id,
    title: string,
    description: string,
    kind: ContentType,
    url: Option<string>,
    filePath: Option<string>,
    tags: seq<string>,
    durationMinutes: Option<int>,
    createdBy: Option<Id>,
    createdAt: Instant,
    updatedAt: Instant)

  /** What the schema guarantees of every stored item. */
  predicate Valid(c: Content) {
    && c.title != "" && Trim(c.title) == c.title && Utf16Length(c.title) <= MaxTitleLength
    && c.description != "" && Trim(c.description) == c.description
    && (c.durationMinutes.Some? ==> c.durationMinutes.value >= 0)
  }

  /** The fields of a create or update request the schema knows; any other body field is
      dropped by the schema's strict mode. */
  datatype ContentFields = ContentFields(
    title: Option<string>,
    description: Option<string>,
    kind: Option<string>,
    url: Option<string>,
    filePath: Option<string>,
    tags: Option<seq<string>>,
    durationMinutes: Option<int>,
    createdBy: Option<Id>,
    createdAt: Option<Instant>,
    updatedAt: Option<Instant>)

  /** Rules on `title` once it is trimmed: required, at most 150 UTF-16 code units. */
  function TitleErrors(title: string): (errs: seq<FieldError>)
    ensures errs == [] <==> title != "" && Utf16Length(title) <= MaxTitleLength
  {
    if title == "" then [FieldError("title", TitleRequired)]
    else if Utf16Length(title) > MaxTitleLength then [FieldError("title", TitleTooLong)]
    else []
  }

  function KindErrors(kind: string): (errs: seq<FieldError>)
    ensures errs == [] <==> ParseContentType(kind).Some?
  {
    if kind == "" then [FieldError("type", TypeRequired)]
    else if ParseContentType(kind).None? then [FieldError("type", EnumMessage(kind, "type"))]
    else []
  }

  function DurationErrors(minutes: Option<int>): (errs: seq<FieldError>)
    ensures errs == [] <==> minutes.None? || minutes.value >= 0
  {
    if minutes.Some? && minutes.value < 0 then
      [FieldError("durationMinutes", "Path `durationMinutes` (" + Show(minutes.value) + ") is less than minimum allowed value (0).")]
    else []
  }

  /** Every rule of a new document, in schema order. Missing strings count as empty. */
  function CreateErrors(f: ContentFields): seq<FieldError> {
    TitleErrors(Trim(f.title.GetOr("")))
    + Required("description", DescriptionRequired, Trim(f.description.GetOr("")))
    + KindErrors(f.kind.GetOr(""))
    + DurationErrors(f.durationMinutes)
  }

  /** `Content.create(fields)` at instant `now`: setters trim the strings, defaults fill
      `tags`, `createdAt` and `updatedAt`, validation runs, and the save hook stamps
      `updatedAt` with `now`. */
  function NewContent(id: Id, f: ContentFields, now: Instant): (r: Result<Content, seq<FieldError>>)
    ensures r.Ok? <==> CreateErrors(f) == []
    ensures r.Err? ==> r.error == CreateErrors(f) && r.error != []
    ensures r.Ok? ==> Valid(r.value)
    ensures r.Ok? ==> r.value.id == id && r.value.title == Trim(f.title.value)
    ensures r.Ok? ==> r.value.description == Trim(f.description.value)
    ensures r.Ok? ==> ContentTypeName(r.value.kind) == f.kind.value
    ensures r.Ok? ==> r.value.tags == f.tags.GetOr([]) && r.value.url == f.url
    ensures r.Ok? ==> r.value.filePath == f.filePath && r.value.durationMinutes == f.durationMinutes
    ensures r.Ok? ==> r.value.createdBy == f.createdBy
    ensures r.Ok? ==> r.value.createdAt == f.createdAt.GetOr(now) && r.value.updatedAt == now
  {
    var errs := CreateErrors(f);
    if errs != [] then Err(errs) else Ok(Created(id, f, now))
  }

  /** The document `create` stores once the fields pass validation. */
  function Created(id: Id, f: ContentFields, now: Instant): (c: Content)
    requires CreateErrors(f) == []
    ensures Valid(c) && f.title.Some? && f.description.Some? && f.kind.Some?
    ensures c.title == Trim(f.title.value) && c.description == Trim(f.description.value)
    ensures ContentTypeName(c.kind) == f.kind.value
  {
    CreateRulesHold(f);
    Content(id, Trim(f.title.GetOr("")), Trim(f.description.GetOr("")), ParseContentType(f.kind.GetOr("")).value,
            f.url, f.filePath, f.tags.GetOr([]), f.durationMinutes, f.createdBy,
            f.createdAt.GetOr(now), now)
  }


  /** Update validators: only the paths present in the update are checked. */
  function UpdateErrors(f: ContentFields): seq<FieldError> {
    (if f.title.Some? then TitleErrors(Trim(f.title.value)) else [])
    + (if f.description.Some? then Required("description", DescriptionRequired, Trim(f.description.value)) else [])
    + (if f.kind.Some? then KindErrors(f.kind.value) else [])
    + DurationErrors(f.durationMinutes)
  }

  function Patch<T>(current: T, supplied: Option<T>): T {
    if supplied.Some? then supplied.value else current
  }

  /** `findByIdAndUpdate(id, fields, { new: true, runValidators: true })` on one stored
      item: the supplied paths are set (strings trimmed), the others keep their value.
      No save hook runs, so `updatedAt` changes only when the update itself sets it. */
  function ApplyUpdate(c: Content, f: ContentFields): (r: Result<Content, seq<FieldError>>)
    requires Valid(c)
    ensures r.Ok? <==> UpdateErrors(f) == []
    ensures r.Ok? ==> Valid(r.value) && r.value.id == c.id
    ensures r.Ok? ==> r.value.title == (if f.title.Some? then Trim(f.title.value) else c.title)
    ensures r.Ok? ==> r.value.description == (if f.description.Some? then Trim(f.description.value) else c.description)
    ensures r.Ok? ==> ContentTypeName(r.value.kind) == (if f.kind.Some? then f.kind.value else ContentTypeName(c.kind))
    ensures r.Ok? ==> r.value.tags == (if f.tags.Some? then f.tags.value else c.tags)
    ensures r.Ok? ==> r.value.url == (if f.url.Some? then f.url else c.url)
    ensures r.Ok? ==> r.value.filePath == (if f.filePath.Some? then f.filePath else c.filePath)
    ensures r.Ok? ==> r.value.durationMinutes == (if f.durationMinutes.Some? then f.durationMinutes else c.durationMinutes)
    ensures r.Ok? ==> r.value.createdBy == (if f.createdBy.Some? then f.createdBy else c.createdBy)
    ensures r.Ok? ==> r.value.createdAt == (if f.createdAt.Some? then f.createdAt.value else c.createdAt)
    ensures r.Ok? ==> r.value.updatedAt == (if f.updatedAt.Some? then f.updatedAt.value else c.updatedAt)
  {
    if UpdateErrors(f) != [] then Err(UpdateErrors(f))
    else
      PatchedValid(c, f);
      Ok(Patched(c, f))
  }

  function Patched(c: Content, f: ContentFields): Content
    requires f.kind.Some? ==> ParseContentType(f.kind.value).Some?
  {
    c.(
      title := if f.title.Some? then Trim(f.title.value) else c.title,
      description := if f.description.Some? then Trim(f.description.value) else c.description,
      kind := if f.kind.Some? then ParseContentType(f.kind.value).value else c.kind,
      url := if f.url.Some? then f.url else c.url,
      filePath := if f.filePath.Some? then f.filePath else c.filePath,
      tags := Patch(c.tags, f.tags),
      durationMinutes := if f.durationMinutes.Some? then f.durationMinutes else c.durationMinutes,
      createdBy := if f.createdBy.Some? then f.createdBy else c.createdBy,
      createdAt := Patch(c.createdAt, f.createdAt),
      updatedAt := Patch(c.updatedAt, f.updatedAt))
  }

  /** An update that passes its validators keeps the item within the schema's rules. */
  lemma PatchedValid(c: Content, f: ContentFields)
    requires Valid(c) && UpdateErrors(f) == []
    ensures f.kind.Some? ==> ParseContentType(f.kind.value).Some?
    ensures Valid(Patched(c, f))
  {
    UpdateRulesHold(f);
    var p := Patched(c, f);
    assert p.title == c.title || p.title == Trim(f.title.value);
    assert p.description == c.description || p.description == Trim(f.description.value);
  }

  /** No error from the create rules: each rule holds of the trimmed values. */
  lemma CreateRulesHold(f: ContentFields)
    requires CreateErrors(f) == []
    ensures var title := Trim(f.title.GetOr(""));
      title != "" && Trim(title) == title && Utf16Length(title) <= MaxTitleLength
    ensures var description := Trim(f.description.GetOr(""));
      description != "" && Trim(description) == description
    ensures ParseContentType(f.kind.GetOr("")).Some?
    ensures f.durationMinutes.Some? ==> f.durationMinutes.value >= 0
    ensures f.title.Some? && f.description.Some? && f.kind.Some?
  {
    NoneOfFour(TitleErrors(Trim(f.title.GetOr(""))),
               Required("description", DescriptionRequired, Trim(f.description.GetOr(""))),
               KindErrors(f.kind.GetOr("")), DurationErrors(f.durationMinutes));
    TrimIdempotent(f.title.GetOr(""));
    TrimIdempotent(f.description.GetOr(""));
  }

  /** No error from the update rules: each supplied path satisfies its rule. */
  lemma UpdateRulesHold(f: ContentFields)
    requires UpdateErrors(f) == []
    ensures f.title.Some? ==> var title := Trim(f.title.value);
      title != "" && Trim(title) == title && Utf16Length(title) <= MaxTitleLength
    ensures f.description.Some? ==> var description := Trim(f.description.value);
      description != "" && Trim(description) == description
    ensures f.kind.Some? ==> ParseContentType(f.kind.value).Some?
    ensures f.durationMinutes.Some? ==> f.durationMinutes.value >= 0
  {
    NoneOfFour(if f.title.Some? then TitleErrors(Trim(f.title.value)) else [],
               if f.description.Some? then Required("description", DescriptionRequired, Trim(f.description.value)) else [],
               if f.kind.Some? then KindErrors(f.kind.value) else [],
               DurationErrors(f.durationMinutes));
    TrimIdempotent(f.title.GetOr(""));
    TrimIdempotent(f.description.GetOr(""));
  }

  lemma NoneOfFour(a: seq<FieldError>, b: seq<FieldError>, c: seq<FieldError>, d: seq<FieldError>)
    requires a + b + c + d == []
    ensures a == [] && b == [] && c == [] && d == []
  {
    assert |a + b + c + d| == |a| + |b| + |c| + |d|;
  }

  /** A whitespace-only title is rejected, because trimming runs before `required`. */
  lemma WhitespaceTitleRejected(id: Id, f: ContentFields, now: Instant)
    requires f.title.Some? && forall i :: 0 <= i < |f.title.value| ==> IsWhitespace(f.title.value[i])
    ensures NewContent(id, f, now).Err?
    ensures FieldError("title", TitleRequired) in NewContent(id, f, now).error
  {
    TrimEmptyIff(f.title.value);
  }
}

=== FILE: errors.dfy ===
/** Errors as the handlers raise them (`utils/errorResponse.js`, `throw new Error(...)`)
    and the global error handler that turns them into a JSON envelope
    (`middleware/errorMiddleware.js`). */
module Errors {
  import opened Wrappers

  /** A thrown JavaScript error. `new Error(message)` carries no status code;
      `new ErrorResponse(message, statusCode)` carries one. */
  datatype JsError = JsError(message: string, statusCode: Option<int>)

  /** An error on its way to the error handler, together with `res.statusCode`
      as it stood when the error was raised. */
  datatype Failure = Failure(err: JsError, resStatus: int)

  /** `res.statusCode` before any handler has set it. */
  const UntouchedStatus := 200

  /** `return next(new ErrorResponse(message, statusCode))`. */
  function Reject(message: string, statusCode: int): Failure {
    Failure(JsError(message, Some(statusCode)), UntouchedStatus)
  }

  /** `res.status(resStatus); throw new Error(message)`. */
  function Throw(message: string, resStatus: int): Failure {
    Failure(JsError(message, None), resStatus)
  }

  /** An error without a status code raised before any status was set: a failed schema
      validation, a configuration error thrown from a model method. */
  function Crash(message: string): Failure {
    Failure(JsError(message, None), UntouchedStatus)
  }

  /** JavaScript truthiness of `err.statusCode` (absent and 0 are falsy). */
  predicate Truthy(code: Option<int>) {
    code.Some? && code.value != 0
  }

  /** The status code the error handler answers with. */
  function ResolveStatus(err: JsError, resStatus: int): (status: int)
    ensures status >= 400
    ensures Truthy(err.statusCode) && err.statusCode.value >= 400 ==> status == err.statusCode.value
    ensures Truthy(err.statusCode) && err.statusCode.value < 400 ==> status == 500
    ensures !Truthy(err.statusCode) && resStatus >= 400 ==> status == resStatus
    ensures !Truthy(err.statusCode) && resStatus < 400 ==> status == 500
  {
    var chosen := if Truthy(err.statusCode) then err.statusCode.value
                  else if resStatus != UntouchedStatus then resStatus
                  else 500;
    if chosen < 400 then 500 else chosen
  }

  datatype ErrorEnvelope = ErrorEnvelope(success: bool, error: string, stack: Option<string>)

  datatype ErrorReply = ErrorReply(status: int, body: ErrorEnvelope)

  const FallbackMessage := "Server Error"

  /** The global error handler. `production` stands for `NODE_ENV === 'production'` and
      `stack` for the runtime's stack trace of the error. */
  function HandleError(failure: Failure, production: bool, stack: string): (reply: ErrorReply)
    ensures reply.status >= 400
    ensures !reply.body.success
    ensures failure.err.message != "" ==> reply.body.error == failure.err.message
    ensures failure.err.message == "" ==> reply.body.error == FallbackMessage
    ensures production ==> reply.body.stack == None
    ensures !production ==> reply.body.stack == Some(stack)
  {
    var status := ResolveStatus(failure.err, failure.resStatus);
    var message := if failure.err.message != "" then failure.err.message else FallbackMessage;
    ErrorReply(status, ErrorEnvelope(false, message, if production then None else Some(stack)))
  }

  /** Every `ErrorResponse` a handler raises with an error status reaches the client with
      that status and its own message. */
  lemma RejectKeepsStatus(message: string, statusCode: int, production: bool, stack: string)
    requires statusCode >= 400 && message != ""
    ensures HandleError(Reject(message, statusCode), production, stack).status == statusCode
    ensures HandleError(Reject(message, statusCode), production, stack).body.error == message
  {
  }

  /** A plain error thrown after `res.status(code)` reaches the client with that code. */
  lemma ThrowKeepsStatus(message: string, resStatus: int, production: bool, stack: string)
    requires resStatus >= 400
    ensures HandleError(Throw(message, resStatus), production, stack).status == resStatus
  {
  }

  /** A plain error thrown before any status was set is answered with 500. */
  lemma CrashIsServerError(message: string, production: bool, stack: string)
    ensures HandleError(Crash(message), production, stack).status == 500
  {
  }
}

=== FILE: identity.dfy ===
/** Identifiers and instants shared by every record of the model. Document ids are kept
    opaque (the store's ObjectIds, rendered as strings in messages); instants are
    milliseconds since the epoch, passed in as parameters wherever the code reads the clock. */
module Identity {
  type Id = string
  type Instant = int
}

=== FILE: insights.dfy ===
/** Per-user insights (`controllers/userInsightsController.js`): how many completions the
    user logged and how many distinct items they viewed. */
module Insights {
  import opened Identity
  import opened Seqs
  import opened InteractionLogModel
  import opened Queries

  /** `countDocuments({ userId, interactionType: 'complete' })` counts these. */
  function CompletedLogs(userId: Id, logs: seq<InteractionLog>): seq<InteractionLog> {
    Filter(logs, ByUserOfKinds(userId, {Complete}))
  }

  /** The user's `view` logs. */
  function ViewLogs(userId: Id, logs: seq<InteractionLog>): seq<InteractionLog> {
    Filter(logs, ByUserOfKinds(userId, {View}))
  }

  /** `distinct('contentId', { userId, interactionType: 'view' })`. */
  function ViewedContent(userId: Id, logs: seq<InteractionLog>): set<Id> {
    set l | l in logs && l.userId == userId && l.kind == View :: l.contentId
  }

  datatype UserInsights = UserInsights(completedCount: nat, viewedCount: nat)

  lemma CompletedAppend(userId: Id, logs: seq<InteractionLog>, l: InteractionLog)
    ensures |CompletedLogs(userId, logs + [l])| == |CompletedLogs(userId, logs)| + (if l.userId == userId && l.kind == Complete then 1 else 0)
  {
    FilterAppend(logs, [l], ByUserOfKinds(userId, {Complete}));
  }

  lemma ViewedAppend(userId: Id, logs: seq<InteractionLog>, l: InteractionLog)
    ensures ViewedContent(userId, logs + [l]) == ViewedContent(userId, logs) + (if l.userId == userId && l.kind == View then {l.contentId} else {})
  {
    var before := ViewedContent(userId, logs);
    var after := ViewedContent(userId, logs + [l]);
    forall id | id in after ensures id in before || (l.userId == userId && l.kind == View && id == l.contentId) {
      var m :| m in logs + [l] && m.userId == userId && m.kind == View && m.contentId == id;
      if m != l {
        assert m in logs;
      }
    }
  }

  /** One pass over the log computing both counts. */
  method GetUserInsights(userId: Id, logs: seq<InteractionLog>) returns (insights: UserInsights)
    ensures insights.completedCount == |CompletedLogs(userId, logs)|
    ensures insights.viewedCount == |ViewedContent(userId, logs)|
  {
    var completed := 0;
    var viewed: set<Id> := {};
    var i := 0;
    while i < |logs|
      invariant 0 <= i <= |logs|
      invariant completed == |CompletedLogs(userId, logs[..i])|
      invariant viewed == ViewedContent(userId, logs[..i])
    {
      var l := logs[i];
      assert logs[..i + 1] == logs[..i] + [l];
      CompletedAppend(userId, logs[..i], l);
      ViewedAppend(userId, logs[..i], l);
      if l.userId == userId && l.kind == Complete {
        completed := completed + 1;
      }
      if l.userId == userId && l.kind == View {
        viewed := viewed + {l.contentId};
      }
      i := i + 1;
    }
    assert logs[..|logs|] == logs;
    insights := UserInsights(completed, |viewed|);
  }

  /** Logs of other users, and `start` logs, change neither count. */
  lemma IrrelevantLogIgnored(userId: Id, logs: seq<InteractionLog>, l: InteractionLog)
    requires l.userId != userId || l.kind == Start
    ensures |CompletedLogs(userId, logs + [l])| == |CompletedLogs(userId, logs)|
    ensures ViewedContent(userId, logs + [l]) == ViewedContent(userId, logs)
  {
    CompletedAppend(userId, logs, l);
    ViewedAppend(userId, logs, l);
  }

  /** Every completion counts, even a repeat for the same content. */
  lemma RepeatCompletionCounts(userId: Id, logs: seq<InteractionLog>, l: InteractionLog)
    requires l.userId == userId && l.kind == Complete
    ensures |CompletedLogs(userId, logs + [l])| == |CompletedLogs(userId, logs)| + 1
  {
    CompletedAppend(userId, logs, l);
  }

  /** A repeat view of already-viewed content adds nothing; a first view adds one. */
  lemma ViewCountsOncePerContent(userId: Id, logs: seq<InteractionLog>, l: InteractionLog)
    requires l.userId == userId && l.kind == View
    ensures l.contentId in ViewedContent(userId, logs) ==> |ViewedContent(userId, logs + [l])| == |ViewedContent(userId, logs)|
    ensures l.contentId !in ViewedContent(userId, logs) ==> |ViewedContent(userId, logs + [l])| == |ViewedContent(userId, logs)| + 1
  {
    ViewedAppend(userId, logs, l);
  }

  /** The distinct-view count never exceeds the number of the user's view logs. */
  lemma {:induction false} ViewedAtMostViews(userId: Id, logs: seq<InteractionLog>)
    ensures |ViewedContent(userId, logs)| <= |ViewLogs(userId, logs)|
  {
    if |logs| > 0 {
      var init, l := logs[..|logs| - 1], logs[|logs| - 1];
      assert logs == init + [l];
      ViewedAtMostViews(userId, init);
      ViewedAppend(userId, init, l);
      FilterAppend(init, [l], ByUserOfKinds(userId, {View}));
    } else {
      assert ViewedContent(userId, logs) == {};
    }
  }
}

=== FILE: interaction_log.dfy ===
/** The InteractionLog schema (`models/InteractionLog.js`): one record per user action. */
module InteractionLogModel {
  import opened Wrappers
  import opened Identity
  import opened Validation

  datatype InteractionType = View | Start | Complete | Rating | Comment | SearchClick

  const InteractionTypeNames: seq<string> := ["view", "start", "complete", "rating", "comment", "search_click"]

  function InteractionTypeName(t: InteractionType): string {
    match t
    case View => "view"
    case Start => "start"
    case Complete => "complete"
    case Rating => "rating"
    case Comment => "comment"
    case SearchClick => "search_click"
  }

  /** The `enum` rule on `interactionType`: exactly the six names. */
  function ParseInteractionType(s: string): (r: Option<InteractionType>)
    ensures r.Some? <==> s in InteractionTypeNames
    ensures r.Some? ==> InteractionTypeName(r.value) == s
  {
    if s == "view" then Some(View)
    else if s == "start" then Some(Start)
    else if s == "complete" then Some(Complete)
    else if s == "rating" then Some(Rating)
    else if s == "comment" then Some(Comment)
    else if s == "search_click" then Some(SearchClick)
    else None
  }

  lemma InteractionTypeRoundTrip(t: InteractionType)
    ensures ParseInteractionType(InteractionTypeName(t)) == Some(t)
  {
  }

  /** The free-form `details` payload, kept to scalar values. */
  datatype Details = Number(n: int) | Note(text: string) | Flag(b: bool)

  datatype InteractionLog = InteractionLog(
    userId: Id,
    contentId: Id,
    kind: InteractionType,
    timestamp: Instant,
    details: Option<Details>)

  /** A log as submitted, before the schema's rules. */
  datatype LogFields = LogFields(
    userId: Option<Id>,
    contentId: Option<Id>,
    interactionType: Option<string>,
    timestamp: Option<Instant>,
    details: Option<Details>)

  function LogErrors(f: LogFields): seq<FieldError> {
    (if f.userId.None? then [FieldError("userId", "Path `userId` is required.")] else [])
    + (if f.contentId.None? then [FieldError("contentId", "Path `contentId` is required.")] else [])
    + (if f.interactionType.None? || f.interactionType.value == "" then [FieldError("interactionType", "Path `interactionType` is required.")]
       else if ParseInteractionType(f.interactionType.value).None? then [FieldError("interactionType", EnumMessage(f.interactionType.value, "interactionType"))]
       else [])
  }

  /** A new log at instant `now`: user, content and a known type are required; the
      timestamp defaults to `now`; details are optional and kept as given. */
  function NewLog(f: LogFields, now: Instant): (r: Result<InteractionLog, seq<FieldError>>)
    ensures r.Ok? <==> f.userId.Some? && f.contentId.Some? && f.interactionType.Some?
                       && f.interactionType.value in InteractionTypeNames
    ensures r.Err? ==> r.error == LogErrors(f) && r.error != []
    ensures r.Ok? ==> r.value.userId == f.userId.value && r.value.contentId == f.contentId.value
    ensures r.Ok? ==> InteractionTypeName(r.value.kind) == f.interactionType.value
    ensures r.Ok? ==> r.value.timestamp == f.timestamp.GetOr(now) && r.value.details == f.details
  {
    var errs := LogErrors(f);
    if errs != [] then Err(errs)
    else
      assert f.interactionType.Some? && ParseInteractionType(f.interactionType.value).Some?;
      Ok(InteractionLog(f.userId.value, f.contentId.value, ParseInteractionType(f.interactionType.value).value,
                        f.timestamp.GetOr(now), f.details))
  }

  /** Neither `bookmark` nor `share` is an interaction type. */
  lemma NoBookmarkOrShare(f: LogFields, now: Instant)
    requires f.interactionType == Some("bookmark") || f.interactionType == Some("share")
    ensures NewLog(f, now).Err?
  {
  }
}

=== FILE: queries.dfy ===
/** The document-store queries the handlers issue, as functions over the stores:
    the content catalog and the user store are sequences in natural (insertion) order,
    the interaction log is a sequence of records. */
module Queries {
  import opened Wrappers
  import opened Identity
  import opened Seqs
  import opened Sorting
  import opened ContentModel
  import opened UserModel
  import opened InteractionLogModel

  function IdOf(c: Content): Id { c.id }
  function CreatedAt(c: Content): int { c.createdAt }
  function Timestamp(l: InteractionLog): int { l.timestamp }
  function ContentIdOf(l: InteractionLog): Id { l.contentId }

  function Ids(cs: seq<Content>): seq<Id> {
    Map(cs, IdOf)
  }

  /** The store's guarantee that `_id` is unique. */
  predicate UniqueIds(cs: seq<Content>) {
    Distinct(Ids(cs))
  }

  lemma IdsMember(cs: seq<Content>, id: Id)
    ensures id in Ids(cs) <==> exists c :: c in cs && c.id == id
  {
    MapMember(cs, IdOf, id);
  }

  /** `Content.findById(id)`. */
  function FindContent(cs: seq<Content>, id: Id): (r: Option<Content>)
    ensures r.Some? <==> id in Ids(cs)
    ensures r.Some? ==> r.value in cs && r.value.id == id
  {
    if |cs| == 0 then None
    else if cs[0].id == id then Some(cs[0])
    else
      assert Ids(cs) == [cs[0].id] + Ids(cs[1..]);
      FindContent(cs[1..], id)
  }

  /** With unique ids, looking up the id of a stored item finds that very item. */
  lemma {:induction false} FindContentUnique(cs: seq<Content>, c: Content)
    requires UniqueIds(cs) && c in cs
    ensures FindContent(cs, c.id) == Some(c)
  {
    var k :| 0 <= k < |cs| && cs[k] == c;
    if cs[0].id == c.id {
      assert Ids(cs)[k] == Ids(cs)[0];
    } else {
      assert Ids(cs[1..]) == Ids(cs)[1..];
      assert cs[1..][k - 1] == c;
      FindContentUnique(cs[1..], c);
    }
  }

  /** `ids` name catalog items in non-increasing order of creation. */
  predicate NewestFirstIds(catalog: seq<Content>, ids: seq<Id>) {
    forall i, j :: 0 <= i < j < |ids| && ids[i] in Ids(catalog) && ids[j] in Ids(catalog) ==>
      FindContent(catalog, ids[i]).value.createdAt >= FindContent(catalog, ids[j]).value.createdAt
  }

  lemma SortedItemsNewestFirst(catalog: seq<Content>, items: seq<Content>)
    requires UniqueIds(catalog) && SortedDesc(items, CreatedAt)
    requires forall c :: c in items ==> c in catalog
    ensures NewestFirstIds(catalog, Ids(items))
  {
    forall i, j | 0 <= i < j < |items| && Ids(items)[i] in Ids(catalog) && Ids(items)[j] in Ids(catalog)
      ensures FindContent(catalog, Ids(items)[i]).value.createdAt >= FindContent(catalog, Ids(items)[j]).value.createdAt {
      FindContentUnique(catalog, items[i]);
      FindContentUnique(catalog, items[j]);
    }
  }

  /** `User.findById(id)`. */
  function FindUser(users: seq<User>, id: Id): (r: Option<User>)
    ensures r.Some? <==> exists u :: u in users && u.id == id
    ensures r.Some? ==> r.value in users && r.value.id == id
  {
    if |users| == 0 then None
    else if users[0].id == id then Some(users[0])
    else FindUser(users[1..], id)
  }

  /** `User.findOne({ email })`. The schema's `lowercase` and `trim` setters also apply to
      the query value, so the lookup compares normalised addresses. */
  function FindUserByEmail(users: seq<User>, email: string): (r: Option<User>)
    ensures r.Some? <==> exists u :: u in users && u.email == NormalizeEmail(email)
    ensures r.Some? ==> r.value in users && r.value.email == NormalizeEmail(email)
  {
    if |users| == 0 then None
    else if users[0].email == NormalizeEmail(email) then Some(users[0])
    else FindUserByEmail(users[1..], email)
  }

  /** The filter `_id: { $nin: excluded }`. */
  function Outside(excluded: seq<Id>): Content -> bool {
    (c: Content) => c.id !in excluded
  }

  /** The filter `_id: { $in: ids }`. */
  function Among(ids: seq<Id>): Content -> bool {
    (c: Content) => c.id in ids
  }

  /** `.sort({ createdAt: -1 })`. */
  function NewestFirst(cs: seq<Content>): seq<Content> {
    SortDesc(cs, CreatedAt)
  }

  /** Projection, filtering, sorting and limiting never repeat an id. */
  lemma UniqueSelection(cs: seq<Content>, p: Content -> bool, n: nat)
    ensures UniqueIds(cs) ==> UniqueIds(Filter(cs, p))
    ensures UniqueIds(cs) ==> UniqueIds(NewestFirst(Filter(cs, p)))
    ensures UniqueIds(cs) ==> UniqueIds(Limit(NewestFirst(Filter(cs, p)), n))
    ensures UniqueIds(cs) ==> UniqueIds(Limit(Filter(cs, p), n))
  {
    if !UniqueIds(cs) {
      return;
    }
    var filtered := Filter(cs, p);
    FilterImage(cs, p, IdOf);
    DistinctSub(Ids(filtered), Ids(cs));
    var sorted := NewestFirst(filtered);
    SortImage(filtered, CreatedAt, IdOf);
    DistinctSub(Ids(sorted), Ids(filtered));
    var kept := Limit(sorted, n);
    MapPrefix(sorted, IdOf, |kept|);
    DistinctPrefix(Ids(sorted), |kept|);
    MapPrefix(filtered, IdOf, |Limit(filtered, n)|);
    DistinctPrefix(Ids(filtered), |Limit(filtered, n)|);
  }

  /** `Content.find({ _id: { $nin: excluded } }).sort({ createdAt: -1 }).limit(n)`. */
  function NewestOutside(catalog: seq<Content>, excluded: seq<Id>, n: nat): (items: seq<Content>)
    ensures forall c :: c in items ==> c in catalog && c.id !in excluded
    ensures n > 0 ==> |items| <= n
    ensures SortedDesc(items, CreatedAt)
    ensures UniqueIds(catalog) ==> UniqueIds(items)
  {
    var sorted := NewestFirst(Filter(catalog, Outside(excluded)));
    var items := Limit(sorted, n);
    assert forall c :: c in items ==> c in sorted;
    assert forall c :: c in sorted ==> c in Filter(catalog, Outside(excluded)) by {
      forall c | c in sorted ensures c in Filter(catalog, Outside(excluded)) {
        SortMember(Filter(catalog, Outside(excluded)), CreatedAt, c);
      }
    }
    UniqueSelection(catalog, Outside(excluded), n);
    items
  }

  /** The kept items are the newest eligible ones: anything eligible but left out was
      created no later than any item kept. */
  lemma NewestOutsideIsNewest(catalog: seq<Content>, excluded: seq<Id>, n: nat, c: Content, i: nat)
    requires c in catalog && c.id !in excluded
    requires c !in NewestOutside(catalog, excluded, n)
    requires i < |NewestOutside(catalog, excluded, n)|
    ensures c.createdAt <= NewestOutside(catalog, excluded, n)[i].createdAt
  {
    TakeIsNewest(Filter(catalog, Outside(excluded)), CreatedAt, n, c, i);
  }

  /** The same by ids: an item left out is no newer than the item any returned id names. */
  lemma OlderThanReturnedId(catalog: seq<Content>, excluded: seq<Id>, n: nat, c: Content, id: Id)
    requires UniqueIds(catalog)
    requires c in catalog && c.id !in excluded
    requires c !in NewestOutside(catalog, excluded, n)
    requires id in Ids(NewestOutside(catalog, excluded, n))
    ensures FindContent(catalog, id).Some?
    ensures c.createdAt <= FindContent(catalog, id).value.createdAt
  {
    var items := NewestOutside(catalog, excluded, n);
    var i :| 0 <= i < |items| && Ids(items)[i] == id;
    NewestOutsideIsNewest(catalog, excluded, n, c, i);
    FindContentUnique(catalog, items[i]);
  }

  /** An item whose id was left out is no newer than an item whose id was returned. */
  lemma OlderLeftOut(catalog: seq<Content>, excluded: seq<Id>, n: nat, c: Content, d: Content)
    requires UniqueIds(catalog)
    requires c in catalog && c.id !in excluded
    requires c.id !in Ids(NewestOutside(catalog, excluded, n))
    requires d in catalog && d.id in Ids(NewestOutside(catalog, excluded, n))
    ensures c.createdAt <= d.createdAt
  {
    IdsMember(NewestOutside(catalog, excluded, n), c.id);
    OlderThanReturnedId(catalog, excluded, n, c, d.id);
    FindContentUnique(catalog, d);
  }

  /** When fewer than `n` items come back (or there is no limit), every eligible item came back. */
  lemma NewestOutsideExhausts(catalog: seq<Content>, excluded: seq<Id>, n: nat, c: Content)
    requires n == 0 || |NewestOutside(catalog, excluded, n)| < n
    requires c in catalog && c.id !in excluded
    ensures c in NewestOutside(catalog, excluded, n)
  {
    var filtered := Filter(catalog, Outside(excluded));
    SortMember(filtered, CreatedAt, c);
  }

  /** `Content.find({ _id: { $in: ids } })`, in natural order. */
  function FindAmong(catalog: seq<Content>, ids: seq<Id>): (found: seq<Content>)
    ensures forall c :: c in found <==> c in catalog && c.id in ids
  {
    Filter(catalog, Among(ids))
  }

  /** With unique ids, looking up distinct ids of the catalog finds exactly one record per id. */
  lemma FindAmongCount(catalog: seq<Content>, ids: seq<Id>)
    requires UniqueIds(catalog) && Distinct(ids)
    requires forall id :: id in ids ==> id in Ids(catalog)
    ensures multiset(Ids(FindAmong(catalog, ids))) == multiset(ids)
    ensures |FindAmong(catalog, ids)| == |ids|
  {
    var found := FindAmong(catalog, ids);
    UniqueSelection(catalog, Among(ids), 0);
    var got := Ids(found);
    forall id ensures id in got <==> id in ids {
      IdsMember(found, id);
      if id in ids {
        IdsMember(catalog, id);
        var c :| c in catalog && c.id == id;
        assert c in found;
      }
    }
    SameMembersSameMultiset(got, ids);
    assert |got| == |multiset(got)|;
  }

  lemma SameMembersSameMultiset<T>(a: seq<T>, b: seq<T>)
    requires Distinct(a) && Distinct(b)
    requires forall x :: x in a <==> x in b
    ensures multiset(a) == multiset(b)
  {
    DistinctCounts(a);
    DistinctCounts(b);
    forall x ensures multiset(a)[x] == multiset(b)[x] {
      assert x in a <==> x in multiset(a);
      assert x in b <==> x in multiset(b);
    }
  }

  /** The filter `{ userId }`. */
  function ByUser(userId: Id): InteractionLog -> bool {
    (l: InteractionLog) => l.userId == userId
  }

  /** The filter `{ userId, interactionType: { $in: kinds } }`. */
  function ByUserOfKinds(userId: Id, kinds: set<InteractionType>): InteractionLog -> bool {
    (l: InteractionLog) => l.userId == userId && l.kind in kinds
  }

  /** `InteractionLog.find(filter).sort({ timestamp: -1 }).limit(window)`. */
  function RecentLogs(logs: seq<InteractionLog>, keep: InteractionLog -> bool, window: nat): (recent: seq<InteractionLog>)
    ensures forall l :: l in recent ==> l in logs && keep(l)
    ensures window > 0 ==> |recent| == (if window < |Filter(logs, keep)| then window else |Filter(logs, keep)|)
    ensures window == 0 ==> |recent| == |Filter(logs, keep)|
  {
    var sorted := SortDesc(Filter(logs, keep), Timestamp);
    var recent := Limit(sorted, window);
    assert forall l :: l in recent ==> l in sorted;
    assert forall l :: l in sorted ==> l in Filter(logs, keep) by {
      forall l | l in sorted ensures l in Filter(logs, keep) {
        SortMember(Filter(logs, keep), Timestamp, l);
      }
    }
    recent
  }

  /** A log that matches the filter but fell outside the window is no newer than any
      log inside it, and the window is full. */
  lemma RecentLogsAreNewest(logs: seq<InteractionLog>, keep: InteractionLog -> bool, window: nat,
                            l: InteractionLog, i: nat)
    requires l in logs && keep(l)
    requires l !in RecentLogs(logs, keep, window)
    requires i < |RecentLogs(logs, keep, window)|
    ensures window > 0 && |RecentLogs(logs, keep, window)| == window
    ensures l.timestamp <= RecentLogs(logs, keep, window)[i].timestamp
  {
    var filtered := Filter(logs, keep);
    SortMember(filtered, Timestamp, l);
    TakeIsNewest(filtered, Timestamp, window, l, i);
  }

  /** `[...new Set(recent.map(log => log.contentId.toString()))]`. */
  function SeenIds(logs: seq<InteractionLog>, keep: InteractionLog -> bool, window: nat): (seen: seq<Id>)
    ensures Distinct(seen)
    ensures window > 0 ==> |seen| <= window
    ensures forall id :: id in seen <==> exists l :: l in RecentLogs(logs, keep, window) && l.contentId == id
  {
    var recent := RecentLogs(logs, keep, window);
    var seen := Dedup(Map(recent, ContentIdOf));
    forall id ensures id in seen <==> exists l :: l in recent && l.contentId == id {
      MapMember(recent, ContentIdOf, id);
    }
    seen
  }
}

=== FILE: recommendation.dfy ===
/** Recommendation selection (`controllers/recommendationController.js`): interest-tag
    matches first, then the newest content as a fallback, never anything the user has
    recently viewed or completed. */
module Recommendation {
  import opened Wrappers
  import opened Identity
  import opened Seqs
  import opened Sorting
  import opened Text
  import opened ContentModel
  import opened UserModel
  import opened InteractionLogModel
  import opened Queries

  const DefaultLimit := 5
  const SeenWindow := 20
  const SeenKinds: set<InteractionType> := {View, Complete}

  const FromInterests := "user_interests"
  const FromRecent := "fallback_recent"
  const FromBoth := "user_interests+fallback_recent"
  const ReplyMessage := "AI-Recommended Content"

  /** `parseInt(req.query.limit) || 5`: an absent, unparsable or zero value gives the default. */
  function ResolveLimit(query: Option<string>): (limit: int)
    ensures limit != 0
    ensures query.None? ==> limit == DefaultLimit
    ensures query.Some? && ParseInt(query.value).None? ==> limit == DefaultLimit
    ensures query.Some? && ParseInt(query.value).Some? && ParseInt(query.value).value != 0 ==>
      limit == ParseInt(query.value).value
    ensures query.Some? && ParseInt(query.value) == Some(0) ==> limit == DefaultLimit
  {
    var parsed := if query.Some? then ParseInt(query.value) else None;
    if parsed.None? || parsed.value == 0 then DefaultLimit else parsed.value
  }

  /** A limit written as a number is that number, except that zero means the default. */
  lemma ResolveLimitReadsNumber(n: int)
    ensures ResolveLimit(Some(Show(n))) == if n == 0 then DefaultLimit else n
  {
    ParseShow(n);
  }

  /** Values `parseInt` cannot read fall back to the default. */
  lemma UnreadableLimitIsDefault()
    ensures ResolveLimit(Some("abc")) == DefaultLimit
    ensures ResolveLimit(Some("")) == DefaultLimit
    ensures ResolveLimit(Some("-")) == DefaultLimit
  {
    ParseIntUnreadable();
  }

  /** Leading whitespace, leading zeros and trailing junk are skipped as `parseInt` skips them. */
  lemma PaddedLimitIsRead()
    ensures ResolveLimit(Some(" 07px")) == 7
  {
    ParseIntPadded();
  }

  /** The distinct content ids of the user's 20 newest `view` or `complete` logs. */
  function SeenContent(userId: Id, logs: seq<InteractionLog>): (seen: seq<Id>)
    ensures Distinct(seen) && |seen| <= SeenWindow
    ensures forall id :: id in seen ==>
      exists l :: l in logs && l.userId == userId && l.kind in SeenKinds && l.contentId == id
  {
    SeenIds(logs, ByUserOfKinds(userId, SeenKinds), SeenWindow)
  }

  /** A `view`/`complete` log of the user whose content is not in the seen set lies outside
      a full window of 20 logs, every one of them at least as new as it. */
  lemma UnseenLogIsOld(userId: Id, logs: seq<InteractionLog>, l: InteractionLog)
    requires l in logs && l.userId == userId && l.kind in SeenKinds
    requires l.contentId !in SeenContent(userId, logs)
    ensures |RecentLogs(logs, ByUserOfKinds(userId, SeenKinds), SeenWindow)| == SeenWindow
    ensures forall r :: r in RecentLogs(logs, ByUserOfKinds(userId, SeenKinds), SeenWindow) ==> l.timestamp <= r.timestamp
  {
    var keep := ByUserOfKinds(userId, SeenKinds);
    var recent := RecentLogs(logs, keep, SeenWindow);
    assert l !in recent;
    assert keep(l);
    forall r | r in recent ensures l.timestamp <= r.timestamp {
      var i :| 0 <= i < |recent| && recent[i] == r;
      RecentLogsAreNewest(logs, keep, SeenWindow, l, i);
    }
    RecentLogsAreNewest(logs, keep, SeenWindow, l, 0);
  }

  /** Logs of other users and of other interaction types never change the seen set. */
  lemma SeenIgnoresOtherLogs(userId: Id, logs: seq<InteractionLog>, l: InteractionLog)
    requires l.userId != userId || l.kind !in SeenKinds
    ensures SeenContent(userId, logs + [l]) == SeenContent(userId, logs)
  {
    var keep := ByUserOfKinds(userId, SeenKinds);
    FilterAppend(logs, [l], keep);
    assert Filter([l], keep) == [];
    assert Filter(logs + [l], keep) == Filter(logs, keep);
  }

  /** The tag filter `tags: { $in: interests }`: some tag of the item is an interest. */
  predicate MatchesInterests(c: Content, interests: seq<string>) {
    exists t :: t in c.tags && t in interests
  }

  function InterestMatch(interests: seq<string>, seen: seq<Id>): Content -> bool {
    (c: Content) => MatchesInterests(c, interests) && c.id !in seen
  }

  /** Strategy 1, `Content.find({ tags: { $in: interests }, _id: { $nin: seen } }).limit(limit)`,
      in catalog order; it runs only for an existing user with some interests. */
  function InterestItems(user: Option<User>, catalog: seq<Content>, seen: seq<Id>, limit: int): (items: seq<Content>)
    requires UniqueIds(catalog) && limit >= 1
    ensures |items| <= limit && UniqueIds(items)
    ensures items != [] ==> user.Some? && user.value.interests != []
    ensures forall c :: c in items ==> c in catalog && c.id !in seen && MatchesInterests(c, user.value.interests)
  {
    if user.Some? && |user.value.interests| > 0 then
      var p := InterestMatch(user.value.interests, seen);
      UniqueSelection(catalog, p, limit);
      LimitMember(Filter(catalog, p), limit);
      Limit(Filter(catalog, p), limit)
    else []
  }

  function InterestStage(user: Option<User>, catalog: seq<Content>, seen: seq<Id>, limit: int): (picked: seq<Id>)
    requires UniqueIds(catalog) && limit >= 1
    ensures |picked| <= limit && Distinct(picked)
    ensures picked != [] ==> user.Some? && user.value.interests != []
    ensures forall id :: id in picked ==> id !in seen && id in Ids(catalog)
    ensures forall id :: id in picked ==>
      exists c :: c in catalog && c.id == id && MatchesInterests(c, user.value.interests)
  {
    var items := InterestItems(user, catalog, seen, limit);
    forall id | id in Ids(items)
      ensures id !in seen && id in Ids(catalog)
      ensures exists c :: c in catalog && c.id == id && MatchesInterests(c, user.value.interests)
    {
      IdsMember(items, id);
      IdsMember(catalog, id);
    }
    Ids(items)
  }

  /** When the interest stage returns fewer than `limit` ids, it returned every unseen item
      that matches an interest. */
  lemma InterestStageExhausts(user: Option<User>, catalog: seq<Content>, seen: seq<Id>, limit: int, c: Content)
    requires UniqueIds(catalog) && limit >= 1
    requires |InterestStage(user, catalog, seen, limit)| < limit
    requires user.Some? && c in catalog && c.id !in seen && MatchesInterests(c, user.value.interests)
    ensures c.id in InterestStage(user, catalog, seen, limit)
  {
    var p := InterestMatch(user.value.interests, seen);
    assert p(c);
    var items := InterestItems(user, catalog, seen, limit);
    assert c in items;
    IdsMember(items, c.id);
  }

  /** Strategy 2, run only while fewer than `limit` ids are picked: the newest items outside
      both the seen set and the picked ids, as many as are still needed. */
  function FallbackStage(catalog: seq<Content>, seen: seq<Id>, picked: seq<Id>, limit: int): (extra: seq<Id>)
    requires UniqueIds(catalog) && limit >= 1 && |picked| <= limit
    ensures |picked| + |extra| <= limit
    ensures |picked| == limit ==> extra == []
    ensures Distinct(extra)
    ensures forall id :: id in extra ==> id !in seen && id !in picked && id in Ids(catalog)
  {
    if |picked| < limit then
      var items := NewestOutside(catalog, seen + picked, limit - |picked|);
      forall id | id in Ids(items) ensures id !in seen && id !in picked && id in Ids(catalog) {
        IdsMember(items, id);
        IdsMember(catalog, id);
      }
      Ids(items)
    else []
  }

  /** The `source` label: `fallback_recent` unless the interest stage contributed, and
      `+fallback_recent` appended only when the interest stage contributed and the fallback
      added something. */
  function Label(picked: seq<Id>, extra: seq<Id>): string {
    var source := if |picked| > 0 then FromInterests else FromRecent;
    if |extra| > 0 && source == FromRecent then source
    else if |extra| > 0 then source + "+fallback_recent"
    else source
  }

  datatype Selection = Selection(picked: seq<Id>, extra: seq<Id>, source: string) {
    /** `[...recommendedContentIds, ...fallbackIds]`. */
    function All(): seq<Id> { picked + extra }
  }

  function Select(user: Option<User>, seen: seq<Id>, catalog: seq<Content>, limit: int): (sel: Selection)
    requires UniqueIds(catalog) && limit >= 1
    ensures |sel.All()| <= limit
    ensures Distinct(sel.All())
    ensures forall id :: id in sel.All() ==> id !in seen && id in Ids(catalog)
    ensures sel.picked != [] ==> user.Some? && user.value.interests != []
    ensures forall id :: id in sel.picked ==>
      exists c :: c in catalog && c.id == id && MatchesInterests(c, user.value.interests)
  {
    var picked := InterestStage(user, catalog, seen, limit);
    var extra := FallbackStage(catalog, seen, picked, limit);
    DistinctAppend(picked, extra);
    Selection(picked, extra, Label(picked, extra))
  }

  /** `user_interests` exactly when only the interest stage contributed, `fallback_recent`
      exactly when it contributed nothing, the composite label exactly when both did. */
  lemma SourceLabel(user: Option<User>, seen: seq<Id>, catalog: seq<Content>, limit: int)
    requires UniqueIds(catalog) && limit >= 1
    ensures var sel := Select(user, seen, catalog, limit);
      && (sel.source == FromInterests <==> sel.picked != [] && sel.extra == [])
      && (sel.source == FromRecent <==> sel.picked == [])
      && (sel.source == FromBoth <==> sel.picked != [] && sel.extra != [])
  {
    var sel := Select(user, seen, catalog, limit);
    LabelMeaning(sel.picked, sel.extra);
  }

  lemma LabelMeaning(picked: seq<Id>, extra: seq<Id>)
    ensures Label(picked, extra) == FromInterests <==> picked != [] && extra == []
    ensures Label(picked, extra) == FromRecent <==> picked == []
    ensures Label(picked, extra) == FromBoth <==> picked != [] && extra != []
  {
    assert FromInterests + "+fallback_recent" == FromBoth;
    assert FromInterests[0] != FromRecent[0];
    assert |FromBoth| != |FromInterests| && |FromBoth| != |FromRecent|;
  }

  /** A user that is missing or has no interests gets exactly the newest unseen items. */
  lemma NoInterestsMeansNewest(user: Option<User>, seen: seq<Id>, catalog: seq<Content>, limit: int)
    requires UniqueIds(catalog) && limit >= 1
    requires user.None? || user.value.interests == []
    ensures Select(user, seen, catalog, limit).All() == Ids(NewestOutside(catalog, seen, limit))
    ensures Select(user, seen, catalog, limit).source == FromRecent
  {
    NothingPicked(user, seen, catalog, limit);
    var extra := FallbackStage(catalog, seen, [], limit);
    assert extra == Ids(NewestOutside(catalog, seen, limit)) by {
      assert seen + [] == seen;
    }
    assert [] + extra == extra;
  }

  lemma NothingPicked(user: Option<User>, seen: seq<Id>, catalog: seq<Content>, limit: int)
    requires UniqueIds(catalog) && limit >= 1
    requires user.None? || user.value.interests == []
    ensures InterestStage(user, catalog, seen, limit) == []
  {
    assert InterestItems(user, catalog, seen, limit) == [];
  }

  /** Fewer than `limit` ids only when the catalog ran out: every unseen item was selected. */
  lemma SelectionExhausts(user: Option<User>, seen: seq<Id>, catalog: seq<Content>, limit: int, c: Content)
    requires UniqueIds(catalog) && limit >= 1
    requires |Select(user, seen, catalog, limit).All()| < limit
    requires c in catalog && c.id !in seen
    ensures c.id in Select(user, seen, catalog, limit).All()
  {
    var sel := Select(user, seen, catalog, limit);
    if c.id !in sel.picked {
      var n := limit - |sel.picked|;
      var items := NewestOutside(catalog, seen + sel.picked, n);
      assert sel.extra == Ids(items);
      NewestOutsideExhausts(catalog, seen + sel.picked, n, c);
      IdsMember(items, c.id);
    }
  }

  /** Every catalog item the fallback returned is at least as new as any item it could
      have returned but left out. */
  lemma FallbackIsNewest(catalog: seq<Content>, seen: seq<Id>, picked: seq<Id>, limit: int, c: Content, d: Content)
    requires UniqueIds(catalog) && limit >= 1 && |picked| <= limit
    requires c in catalog && c.id !in seen && c.id !in picked && c.id !in FallbackStage(catalog, seen, picked, limit)
    requires d in catalog && d.id in FallbackStage(catalog, seen, picked, limit)
    ensures c.createdAt <= d.createdAt
  {
    OlderLeftOut(catalog, seen + picked, limit - |picked|, c, d);
  }

  datatype RecommendationReply = RecommendationReply(
    success: bool, count: nat, source: string, data: seq<Content>, message: string)

  /** `getRecommendations` for the authenticated user `userId`. The records are fetched
      with `_id: { $in: ids }`, so they come back in catalog order, not selection order. */
  function GetRecommendations(userId: Id, limitQuery: Option<string>, users: seq<User>,
                              logs: seq<InteractionLog>, catalog: seq<Content>): (reply: RecommendationReply)
    requires UniqueIds(catalog)
    requires ResolveLimit(limitQuery) >= 1
    ensures reply.success && reply.message == ReplyMessage
    ensures reply.count == |reply.data| <= ResolveLimit(limitQuery)
    ensures forall c :: c in reply.data ==> c in catalog && c.id !in SeenContent(userId, logs)
    ensures var sel := Select(FindUser(users, userId), SeenContent(userId, logs), catalog, ResolveLimit(limitQuery));
      && multiset(Ids(reply.data)) == multiset(sel.All())
      && reply.source == sel.source
    ensures reply.source == FromInterests || reply.source == FromRecent || reply.source == FromBoth
  {
    var limit := ResolveLimit(limitQuery);
    var seen := SeenContent(userId, logs);
    var sel := Select(FindUser(users, userId), seen, catalog, limit);
    var data := FindAmong(catalog, sel.All());
    FindAmongCount(catalog, sel.All());
    SourceLabel(FindUser(users, userId), seen, catalog, limit);
    RecommendationReply(true, |data|, sel.source, data, ReplyMessage)
  }
}

=== FILE: recommendation_engine.dfy ===
/** The recency-only selection of `services/recommendationEngine.js`: the newest content the
    user has not touched in their last 50 interactions of any kind. */
module RecommendationEngine {
  import opened Wrappers
  import opened Identity
  import opened Seqs
  import opened ContentModel
  import opened InteractionLogModel
  import opened Queries

  const EngineDefaultLimit := 5
  const HistoryWindow := 50

  /** The distinct content ids of the user's 50 newest logs, whatever their type. */
  function History(userId: Id, logs: seq<InteractionLog>): (seen: seq<Id>)
    ensures Distinct(seen) && |seen| <= HistoryWindow
    ensures forall id :: id in seen ==> exists l :: l in logs && l.userId == userId && l.contentId == id
    ensures forall id :: id in seen <==>
      exists l :: l in RecentLogs(logs, ByUser(userId), HistoryWindow) && l.contentId == id
  {
    SeenIds(logs, ByUser(userId), HistoryWindow)
  }

  /** A log of the user whose content is not in the history lies outside a full window of
      50 logs of the user, every one of them at least as new as it. */
  lemma HistoryLogIsOld(userId: Id, logs: seq<InteractionLog>, l: InteractionLog)
    requires l in logs && l.userId == userId
    requires l.contentId !in History(userId, logs)
    ensures |RecentLogs(logs, ByUser(userId), HistoryWindow)| == HistoryWindow
    ensures forall r :: r in RecentLogs(logs, ByUser(userId), HistoryWindow) ==> l.timestamp <= r.timestamp
  {
    var keep := ByUser(userId);
    var recent := RecentLogs(logs, keep, HistoryWindow);
    assert l !in recent;
    assert keep(l);
    forall r | r in recent ensures l.timestamp <= r.timestamp {
      var i :| 0 <= i < |recent| && recent[i] == r;
      RecentLogsAreNewest(logs, keep, HistoryWindow, l, i);
    }
    RecentLogsAreNewest(logs, keep, HistoryWindow, l, 0);
  }

  /** `generateInternalRecommendations(userId, limit = 5)`. An absent `limit` takes the
      default; a `limit` of zero sets no limit at all, as the store's `.limit(0)` does. */
  function GenerateInternalRecommendations(userId: Id, limit: Option<nat>, logs: seq<InteractionLog>,
                                           catalog: seq<Content>): (ids: seq<Id>)
    requires UniqueIds(catalog)
    ensures Distinct(ids)
    ensures limit.None? ==> |ids| <= EngineDefaultLimit
    ensures limit.Some? && limit.value > 0 ==> |ids| <= limit.value
    ensures forall id :: id in ids ==> id !in History(userId, logs) && id in Ids(catalog)
    ensures NewestFirstIds(catalog, ids)
  {
    var items := NewestOutside(catalog, History(userId, logs), limit.GetOr(EngineDefaultLimit));
    forall id | id in Ids(items) ensures id !in History(userId, logs) && id in Ids(catalog) {
      IdsMember(items, id);
      IdsMember(catalog, id);
    }
    SortedItemsNewestFirst(catalog, items);
    Ids(items)
  }

  /** Anything unseen but left out is no newer than any recommended item, and when fewer
      ids come back than the limit asks for (or there is no limit), nothing unseen was left out. */
  lemma EngineIsNewest(userId: Id, limit: Option<nat>, logs: seq<InteractionLog>, catalog: seq<Content>, c: Content)
    requires UniqueIds(catalog)
    requires c in catalog && c.id !in History(userId, logs)
    requires c.id !in GenerateInternalRecommendations(userId, limit, logs, catalog)
    ensures forall id :: id in GenerateInternalRecommendations(userId, limit, logs, catalog) ==>
      c.createdAt <= FindContent(catalog, id).value.createdAt
    ensures limit != Some(0)
    ensures |GenerateInternalRecommendations(userId, limit, logs, catalog)| == limit.GetOr(EngineDefaultLimit)
  {
    var n := limit.GetOr(EngineDefaultLimit);
    var items := NewestOutside(catalog, History(userId, logs), n);
    IdsMember(items, c.id);
    assert c !in items;
    forall id | id in Ids(items) ensures c.createdAt <= FindContent(catalog, id).value.createdAt {
      OlderThanReturnedId(catalog, History(userId, logs), n, c, id);
    }
    if n == 0 || |items| < n {
      NewestOutsideExhausts(catalog, History(userId, logs), n, c);
    }
  }
}

=== FILE: seqs.dfy ===
/** Sequence helpers standing in for the document store's filter / project / limit
    operators and for JavaScript's `[...new Set(xs)]`. */
module Seqs {

  predicate Distinct<T(==)>(s: seq<T>) {
    forall i, j :: 0 <= i < j < |s| ==> s[i] != s[j]
  }

  /** Elements of `s` satisfying `p`, in their original order. */
  function Filter<T(!new)>(s: seq<T>, p: T -> bool): (r: seq<T>)
    ensures |r| <= |s|
    ensures forall x :: x in r <==> x in s && p(x)
  {
    if |s| == 0 then []
    else
      assert s == [s[0]] + s[1..];
      (if p(s[0]) then [s[0]] else []) + Filter(s[1..], p)
  }

  /** Filtering keeps each element at most as often as it occurs. */
  lemma {:induction false} FilterSub<T(!new)>(s: seq<T>, p: T -> bool)
    ensures multiset(Filter(s, p)) <= multiset(s)
  {
    if |s| > 0 {
      FilterSub(s[1..], p);
      assert s == [s[0]] + s[1..];
    }
  }

  lemma {:induction false} FilterAppend<T(!new)>(a: seq<T>, b: seq<T>, p: T -> bool)
    ensures Filter(a + b, p) == Filter(a, p) + Filter(b, p)
  {
    if |a| == 0 {
      assert a + b == b;
    } else {
      assert (a + b)[1..] == a[1..] + b;
      FilterAppend(a[1..], b, p);
    }
  }

  /** A filter every element passes keeps the sequence as it is. */
  lemma {:induction false} FilterAll<T(!new)>(s: seq<T>, p: T -> bool)
    requires forall x :: x in s ==> p(x)
    ensures Filter(s, p) == s
  {
    if |s| > 0 {
      FilterAll(s[1..], p);
    }
  }

  /** Filtering out one element between two runs the filter keeps removes just that element. */
  lemma {:induction false} FilterDropOne<T(!new)>(before: seq<T>, x: T, after: seq<T>, p: T -> bool)
    requires !p(x)
    requires forall y :: y in before ==> p(y)
    requires forall y :: y in after ==> p(y)
    ensures Filter(before + [x] + after, p) == before + after
  {
    if |before| == 0 {
      assert before + [x] + after == [x] + after;
      assert ([x] + after)[1..] == after;
      FilterAll(after, p);
    } else {
      assert (before + [x] + after)[1..] == before[1..] + [x] + after;
      FilterDropOne(before[1..], x, after, p);
      assert before + after == [before[0]] + (before[1..] + after);
    }
  }

  /** `f` applied to every element, as JavaScript's `xs.map(f)`. */
  function Map<T, U>(s: seq<T>, f: T -> U): (r: seq<U>)
    ensures |r| == |s|
    ensures forall i :: 0 <= i < |s| ==> r[i] == f(s[i])
  {
    if |s| == 0 then [] else [f(s[0])] + Map(s[1..], f)
  }

  lemma {:induction false} MapAppend<T, U>(a: seq<T>, b: seq<T>, f: T -> U)
    ensures Map(a + b, f) == Map(a, f) + Map(b, f)
  {
  }

  /** Filtering keeps a sub-multiset of any projection of the elements. */
  lemma {:induction false} FilterImage<T(!new), U>(s: seq<T>, p: T -> bool, f: T -> U)
    ensures multiset(Map(Filter(s, p), f)) <= multiset(Map(s, f))
  {
    if |s| > 0 {
      FilterImage(s[1..], p, f);
      var head := if p(s[0]) then [s[0]] else [];
      MapAppend(head, Filter(s[1..], p), f);
      assert Map(s, f) == [f(s[0])] + Map(s[1..], f);
    }
  }

  lemma MapPrefix<T, U>(s: seq<T>, f: T -> U, n: nat)
    requires n <= |s|
    ensures Map(s[..n], f) == Map(s, f)[..n]
  {
  }

  lemma MapMember<T, U>(s: seq<T>, f: T -> U, y: U)
    ensures y in Map(s, f) <==> exists i :: 0 <= i < |s| && f(s[i]) == y
  {
    var r := Map(s, f);
    if y in r {
      var i :| 0 <= i < |r| && r[i] == y;
      assert f(s[i]) == y;
    }
  }

  /** The first `n` elements, or all of them when there are fewer. */
  function Take<T>(s: seq<T>, n: nat): (r: seq<T>)
    ensures |r| == if n < |s| then n else |s|
    ensures r == s[..|r|]
  {
    if n < |s| then s[..n] else s
  }

  /** The document store's `.limit(n)`: zero means no limit at all. */
  function Limit<T>(s: seq<T>, n: nat): (r: seq<T>)
    ensures n == 0 ==> r == s
    ensures n > 0 ==> |r| <= n
    ensures |r| <= |s| && r == s[..|r|]
    ensures n > 0 ==> |r| == if n < |s| then n else |s|
  {
    if n == 0 then s else Take(s, n)
  }

  lemma LimitMember<T>(s: seq<T>, n: nat)
    ensures forall x :: x in Limit(s, n) ==> x in s
  {
    forall x | x in Limit(s, n) ensures x in s {
      var i :| 0 <= i < |Limit(s, n)| && Limit(s, n)[i] == x;
      assert s[i] == x;
    }
  }

  /** `[...new Set(s)]`: the first occurrence of every value, in order of first occurrence. */
  function Dedup<T(==,!new)>(s: seq<T>): (r: seq<T>)
    ensures Distinct(r)
    ensures forall x :: x in r <==> x in s
    ensures |r| <= |s|
  {
    if |s| == 0 then []
    else
      var init := Dedup(s[..|s| - 1]);
      var last := s[|s| - 1];
      assert forall x :: x in s <==> x in s[..|s| - 1] || x == last by {
        assert s == s[..|s| - 1] + [last];
      }
      if last in init then init else init + [last]
  }

  lemma {:induction false} DistinctCounts<T>(s: seq<T>)
    requires Distinct(s)
    ensures forall x :: multiset(s)[x] <= 1
  {
    if |s| > 0 {
      var init, last := s[..|s| - 1], s[|s| - 1];
      assert s == init + [last];
      DistinctCounts(init);
      assert last !in init;
      forall x ensures multiset(s)[x] <= 1 {
        assert multiset(s)[x] == multiset(init)[x] + multiset([last])[x];
      }
    }
  }

  lemma DuplicateCount<T>(s: seq<T>, i: nat, j: nat)
    requires i < j < |s| && s[i] == s[j]
    ensures multiset(s)[s[i]] >= 2
  {
    assert s == s[..j] + s[j..];
    assert s[i] in s[..j];
    assert s[j] in s[j..];
    assert multiset(s)[s[i]] == multiset(s[..j])[s[i]] + multiset(s[j..])[s[i]];
  }

  /** A sub-multiset of a duplicate-free sequence is duplicate-free. */
  lemma DistinctSub<T>(a: seq<T>, b: seq<T>)
    requires multiset(a) <= multiset(b)
    requires Distinct(b)
    ensures Distinct(a)
  {
    DistinctCounts(b);
    forall i, j | 0 <= i < j < |a| ensures a[i] != a[j] {
      if a[i] == a[j] {
        DuplicateCount(a, i, j);
      }
    }
  }

  lemma DistinctPrefix<T>(s: seq<T>, n: nat)
    requires n <= |s|
    requires Distinct(s)
    ensures Distinct(s[..n])
  {
  }

  lemma DistinctAppend<T>(a: seq<T>, b: seq<T>)
    requires Distinct(a) && Distinct(b)
    requires forall x :: x in a ==> x !in b
    ensures Distinct(a + b)
  {
    var c := a + b;
    forall i, j | 0 <= i < j < |c| ensures c[i] != c[j] {
      if j < |a| {
      } else if i >= |a| {
        assert c[i] == b[i - |a|] && c[j] == b[j - |a|];
      } else {
        assert c[i] in a && c[j] == b[j - |a|];
      }
    }
  }
}

=== FILE: sorting.dfy ===
/** The document store's `.sort({ field: -1 })`, as an insertion sort on an integer key.
    The store leaves the order among equal keys open; this model picks one. */
module Sorting {
  import opened Seqs

  predicate SortedDesc<T>(s: seq<T>, key: T -> int) {
    forall i, j :: 0 <= i < j < |s| ==> key(s[i]) >= key(s[j])
  }

  /** Places `x` before the first element whose key is not larger than its own. */
  function Insert<T>(x: T, s: seq<T>, key: T -> int): (r: seq<T>)
    requires SortedDesc(s, key)
    ensures SortedDesc(r, key)
    ensures multiset(r) == multiset(s) + multiset{x}
    ensures |r| == |s| + 1
  {
    if |s| == 0 then [x]
    else if key(s[0]) <= key(x) then [x] + s
    else
      var rest := Insert(x, s[1..], key);
      assert s == [s[0]] + s[1..];
      InsertHeadBound(x, s, rest, key);
      [s[0]] + rest
  }

  /** The head of `s` stays in front when `x` goes behind it. */
  lemma InsertHeadBound<T>(x: T, s: seq<T>, rest: seq<T>, key: T -> int)
    requires |s| > 0 && SortedDesc(s, key) && key(x) < key(s[0])
    requires SortedDesc(rest, key)
    requires multiset(rest) == multiset(s[1..]) + multiset{x}
    ensures SortedDesc([s[0]] + rest, key)
  {
    forall j | 0 <= j < |rest| ensures key(s[0]) >= key(rest[j]) {
      assert rest[j] in multiset(rest);
      if rest[j] != x {
        assert rest[j] in multiset(s[1..]);
        var k :| 0 <= k < |s[1..]| && s[1..][k] == rest[j];
        assert s[k + 1] == rest[j];
      }
    }
    var t := [s[0]] + rest;
    forall i, j | 0 <= i < j < |t| ensures key(t[i]) >= key(t[j]) {
      if i > 0 {
        assert t[i] == rest[i - 1] && t[j] == rest[j - 1];
      } else {
        assert t[j] == rest[j - 1];
      }
    }
  }

  /** `s` rearranged newest (largest key) first. */
  function SortDesc<T>(s: seq<T>, key: T -> int): (r: seq<T>)
    ensures SortedDesc(r, key)
    ensures multiset(r) == multiset(s)
    ensures |r| == |s|
  {
    if |s| == 0 then []
    else
      assert s == [s[0]] + s[1..];
      Insert(s[0], SortDesc(s[1..], key), key)
  }

  lemma SortMember<T>(s: seq<T>, key: T -> int, x: T)
    ensures x in SortDesc(s, key) <==> x in s
  {
    assert x in SortDesc(s, key) <==> x in multiset(SortDesc(s, key));
  }

  /** Every element left out of the first `n` of the sorted sequence has a key no larger
      than any element kept: the kept ones are the newest. */
  lemma {:induction false} TakeIsNewest<T>(s: seq<T>, key: T -> int, n: nat, x: T, i: nat)
    requires x in s && x !in Limit(SortDesc(s, key), n)
    requires i < |Limit(SortDesc(s, key), n)|
    ensures key(x) <= key(Limit(SortDesc(s, key), n)[i])
  {
    var r := SortDesc(s, key);
    var kept := Limit(r, n);
    SortMember(s, key, x);
    var k :| 0 <= k < |r| && r[k] == x;
    assert k >= |kept|;
    assert kept[i] == r[i];
  }

  lemma {:induction false} InsertImage<T, U>(x: T, s: seq<T>, key: T -> int, f: T -> U)
    requires SortedDesc(s, key)
    ensures multiset(Map(Insert(x, s, key), f)) == multiset(Map(s, f)) + multiset{f(x)}
    decreases |s|, 1
  {
    if |s| == 0 {
    } else if key(s[0]) <= key(x) {
      MapCons(x, s, f);
    } else {
      InsertBehindImage(x, s, key, f);
    }
  }

  /** The case where `x` goes behind the head of `s`. */
  lemma {:induction false} InsertBehindImage<T, U>(x: T, s: seq<T>, key: T -> int, f: T -> U)
    requires |s| > 0 && SortedDesc(s, key) && key(x) < key(s[0])
    ensures multiset(Map(Insert(x, s, key), f)) == multiset(Map(s, f)) + multiset{f(x)}
    decreases |s|, 0
  {
    SortedTail(s, key);
    var rest := Insert(x, s[1..], key);
    assert Insert(x, s, key) == [s[0]] + rest;
    InsertImage(x, s[1..], key, f);
    ConsImage(s[0], s[1..], rest, f, f(x));
    assert [s[0]] + s[1..] == s;
  }

  lemma MapCons<T, U>(x: T, s: seq<T>, f: T -> U)
    ensures Map([x] + s, f) == [f(x)] + Map(s, f)
  {
    assert ([x] + s)[1..] == s;
  }

  /** Putting the same element in front of both sides keeps a multiset relation of images. */
  lemma ConsImage<T, U>(a: T, s: seq<T>, t: seq<T>, f: T -> U, y: U)
    requires multiset(Map(t, f)) == multiset(Map(s, f)) + multiset{y}
    ensures multiset(Map([a] + t, f)) == multiset(Map([a] + s, f)) + multiset{y}
  {
    MapCons(a, t, f);
    MapCons(a, s, f);
  }

  lemma SortedTail<T>(s: seq<T>, key: T -> int)
    requires |s| > 0 && SortedDesc(s, key)
    ensures SortedDesc(s[1..], key)
  {
    forall i, j | 0 <= i < j < |s| - 1 ensures key(s[1..][i]) >= key(s[1..][j]) {
      assert s[1..][i] == s[i + 1] && s[1..][j] == s[j + 1];
    }
  }

  /** Sorting rearranges the projected values too: their multiset is unchanged. */
  lemma {:induction false} SortImage<T, U>(s: seq<T>, key: T -> int, f: T -> U)
    ensures multiset(Map(SortDesc(s, key), f)) == multiset(Map(s, f))
  {
    if |s| > 0 {
      SortImage(s[1..], key, f);
      InsertImage(s[0], SortDesc(s[1..], key), key, f);
      assert Map(s, f) == [f(s[0])] + Map(s[1..], f);
    }
  }
}

=== FILE: text.dfy ===
/** The JavaScript string operations the handlers rely on: `trim`, `toLowerCase`,
    `includes`, `startsWith`, `split`, `length` (in UTF-16 code units) and `parseInt`. */
module Text {
  import opened Wrappers

  /** ECMAScript's WhiteSpace and LineTerminator code points, the set `trim` and
      `parseInt` skip: TAB, LF, VT, FF, CR, the Unicode space separators (Zs),
      LINE SEPARATOR, PARAGRAPH SEPARATOR and ZERO WIDTH NO-BREAK SPACE. */
  predicate IsWhitespace(c: char) {
    || c == '\t' || c == '\n' || c == '\U{000B}' || c == '\U{000C}' || c == '\r'
    || c == ' ' || c == '\U{00A0}' || c == '\U{1680}'
    || ('\U{2000}' <= c <= '\U{200A}')
    || c == '\U{2028}' || c == '\U{2029}' || c == '\U{202F}' || c == '\U{205F}'
    || c == '\U{3000}' || c == '\U{FEFF}'
  }

  function TrimStart(s: string): (r: string)
    ensures |r| <= |s| && r == s[|s| - |r|..]
    ensures forall i :: 0 <= i < |s| - |r| ==> IsWhitespace(s[i])
    ensures |r| > 0 ==> !IsWhitespace(r[0])
  {
    if |s| > 0 && IsWhitespace(s[0]) then TrimStart(s[1..]) else s
  }

  function TrimEnd(s: string): (r: string)
    ensures |r| <= |s| && r == s[..|r|]
    ensures forall i :: |r| <= i < |s| ==> IsWhitespace(s[i])
    ensures |r| > 0 ==> !IsWhitespace(r[|r| - 1])
  {
    if |s| > 0 && IsWhitespace(s[|s| - 1]) then TrimEnd(s[..|s| - 1]) else s
  }

  /** `s.trim()`: the slice of `s` between its leading and its trailing whitespace. */
  function Trim(s: string): (r: string)
    ensures |r| <= |s|
    ensures exists lo :: 0 <= lo && TrimmedAt(s, r, lo)
    ensures |r| > 0 ==> !IsWhitespace(r[0]) && !IsWhitespace(r[|r| - 1])
  {
    var t := TrimStart(s);
    var r := TrimEnd(t);
    SliceFrame(s, t, r, IsWhitespace);
    assert TrimmedAt(s, r, |s| - |t|);
    r
  }

  /** `r` occurs in `s` at `lo`, and everything of `s` before and after it is whitespace. */
  predicate TrimmedAt(s: string, r: string, lo: nat) {
    Framed(s, r, lo, IsWhitespace)
  }

  /** `r` occurs in `s` at `lo`, and every character of `s` outside it satisfies `p`. */
  predicate Framed(s: string, r: string, lo: nat, p: char -> bool) {
    && OccursAt(s, r, lo)
    && (forall i :: 0 <= i < lo ==> p(s[i]))
    && (forall i :: lo + |r| <= i < |s| ==> p(s[i]))
  }

  /** Dropping a prefix of `p`-characters and then a suffix of them leaves a framed slice. */
  lemma SliceFrame(s: string, t: string, r: string, p: char -> bool)
    requires |t| <= |s| && t == s[|s| - |t|..] && forall i :: 0 <= i < |s| - |t| ==> p(s[i])
    requires |r| <= |t| && r == t[..|r|] && forall i :: |r| <= i < |t| ==> p(t[i])
    ensures Framed(s, r, |s| - |t|, p)
  {
    var lo := |s| - |t|;
    forall i | lo + |r| <= i < |s| ensures p(s[i]) {
      assert s[i] == t[i - lo];
    }
  }

  /** `k` occurs in `s` starting at position `i`. */
  predicate OccursAt(s: string, k: string, i: nat) {
    i + |k| <= |s| && s[i..i + |k|] == k
  }

  /** A string that neither starts nor ends with whitespace is its own trim. */
  lemma TrimUnchanged(s: string)
    requires |s| > 0 ==> !IsWhitespace(s[0]) && !IsWhitespace(s[|s| - 1])
    ensures Trim(s) == s
  {
  }

  /** A string trims to nothing exactly when every character of it is whitespace. */
  lemma TrimEmptyIff(s: string)
    ensures Trim(s) == [] <==> forall i :: 0 <= i < |s| ==> IsWhitespace(s[i])
  {
    var t := TrimStart(s);
    if Trim(s) == [] {
      forall i | 0 <= i < |s| ensures IsWhitespace(s[i]) {
      }
    } else {
      var r := Trim(s);
      var lo :| 0 <= lo && TrimmedAt(s, r, lo);
      assert s[lo] == r[0];
    }
  }

  /** Trimming only removes characters: every character kept comes from `s`. */
  lemma TrimSubset(s: string)
    ensures forall i :: 0 <= i < |Trim(s)| ==> Trim(s)[i] in s
  {
    var r := Trim(s);
    var lo :| 0 <= lo && TrimmedAt(s, r, lo);
    forall i | 0 <= i < |r| ensures r[i] in s {
      assert r[i] == s[lo + i];
    }
  }

  /** Trimming twice is trimming once. */
  lemma TrimIdempotent(s: string)
    ensures Trim(Trim(s)) == Trim(s)
  {
    var r := Trim(s);
    if |r| > 0 {
      assert TrimStart(r) == r;
      assert TrimEnd(r) == r;
    }
  }

  predicate IsAsciiUpper(c: char) { 'A' <= c <= 'Z' }

  /** `toLowerCase` of one character, exact for every result that contains an ASCII
      character: ASCII capitals, LATIN CAPITAL LETTER I WITH DOT ABOVE (which becomes
      `i` followed by COMBINING DOT ABOVE) and KELVIN SIGN (which becomes `k`). Every
      other character is kept; its true lower-case form holds no ASCII character either. */
  function LowerChar(c: char): (r: string)
    ensures |r| >= 1
  {
    if IsAsciiUpper(c) then [(c as int + 32) as char]
    else if c == '\U{0130}' then ['i', '\U{0307}']
    else if c == '\U{212A}' then ['k']
    else [c]
  }

  function ToLower(s: string): (r: string)
    ensures |r| >= |s|
    ensures forall i :: 0 <= i < |r| ==> !IsAsciiUpper(r[i]) && r[i] != '\U{0130}' && r[i] != '\U{212A}'
  {
    if |s| == 0 then [] else LowerChar(s[0]) + ToLower(s[1..])
  }

  lemma {:induction false} ToLowerAppend(a: string, b: string)
    ensures ToLower(a + b) == ToLower(a) + ToLower(b)
  {
    if |a| == 0 {
      assert a + b == b;
    } else {
      assert (a + b)[1..] == a[1..] + b;
      ToLowerAppend(a[1..], b);
    }
  }

  /** Lower-casing is idempotent: a lower-cased message is its own lower-case form. */
  lemma {:induction false} ToLowerIdempotent(s: string)
    ensures ToLower(ToLower(s)) == ToLower(s)
  {
    LowerUnchanged(ToLower(s));
  }

  /** A string with no character that lower-cases differently is its own lower-case form. */
  lemma {:induction false} LowerUnchanged(s: string)
    requires forall i :: 0 <= i < |s| ==> !IsAsciiUpper(s[i]) && s[i] != '\U{0130}' && s[i] != '\U{212A}'
    ensures ToLower(s) == s
  {
    if |s| > 0 {
      LowerUnchanged(s[1..]);
    }
  }

  /** Lower-casing keeps whitespace and never turns anything else into whitespace. */
  lemma LowerCharWhitespace(c: char)
    ensures IsWhitespace(c) ==> LowerChar(c) == [c]
    ensures !IsWhitespace(c) ==> !IsWhitespace(LowerChar(c)[0]) && !IsWhitespace(LowerChar(c)[|LowerChar(c)| - 1])
  {
  }

  lemma {:induction false} TrimStartLower(s: string)
    ensures ToLower(TrimStart(s)) == TrimStart(ToLower(s))
  {
    if |s| > 0 {
      LowerCharWhitespace(s[0]);
      if IsWhitespace(s[0]) {
        assert ToLower(s) == [s[0]] + ToLower(s[1..]);
        assert ([s[0]] + ToLower(s[1..]))[1..] == ToLower(s[1..]);
        TrimStartLower(s[1..]);
      } else {
        assert ToLower(s)[0] == LowerChar(s[0])[0];
      }
    }
  }

  lemma {:induction false} TrimEndLower(s: string)
    ensures ToLower(TrimEnd(s)) == TrimEnd(ToLower(s))
  {
    if |s| > 0 {
      var init, last := s[..|s| - 1], s[|s| - 1];
      assert s == init + [last];
      ToLowerAppend(init, [last]);
      assert ToLower([last]) == LowerChar(last) + ToLower([]);
      LowerCharWhitespace(last);
      if IsWhitespace(last) {
        assert (ToLower(init) + [last])[..|ToLower(init)|] == ToLower(init);
        TrimEndLower(init);
      } else {
        assert ToLower(s)[|ToLower(s)| - 1] == LowerChar(last)[|LowerChar(last)| - 1];
      }
    }
  }

  /** Trimming and lower-casing commute. */
  lemma TrimLower(s: string)
    ensures ToLower(Trim(s)) == Trim(ToLower(s))
  {
    TrimStartLower(s);
    TrimEndLower(TrimStart(s));
  }

  /** Two strings that differ only in the case of ASCII letters lower-case alike. */
  lemma {:induction false} ToLowerIgnoresAsciiCase(a: string, b: string)
    requires |a| == |b|
    requires forall i :: 0 <= i < |a| ==> a[i] == b[i] || (IsAsciiUpper(a[i]) && b[i] as int == a[i] as int + 32) || (IsAsciiUpper(b[i]) && a[i] as int == b[i] as int + 32)
    ensures ToLower(a) == ToLower(b)
  {
    if |a| > 0 {
      ToLowerIgnoresAsciiCase(a[1..], b[1..]);
    }
  }

  /** `s.startsWith(p)`. */
  predicate StartsWith(s: string, p: string) {
    |p| <= |s| && s[..|p|] == p
  }

  /** `s.includes(k)`: `k` occurs in `s` as a contiguous substring. */
  predicate Contains(s: string, k: string)
    decreases |s|
  {
    |k| <= |s| && (s[..|k|] == k || (|s| > 0 && Contains(s[1..], k)))
  }

  lemma {:induction false} ContainsIff(s: string, k: string)
    ensures Contains(s, k) <==> exists i :: 0 <= i && OccursAt(s, k, i)
    decreases |s|
  {
    if |k| <= |s| && s[..|k|] == k {
      assert OccursAt(s, k, 0);
    } else if |k| <= |s| && |s| > 0 {
      ContainsIff(s[1..], k);
      if Contains(s, k) {
        var i :| 0 <= i && OccursAt(s[1..], k, i);
        SliceShift(s, i + 1, |k|);
        assert OccursAt(s, k, i + 1);
      } else {
        forall i | 0 < i && i + |k| <= |s| ensures !OccursAt(s, k, i) {
          SliceShift(s, i, |k|);
          assert !OccursAt(s[1..], k, i - 1);
        }
      }
    }
  }

  lemma SliceShift(s: string, i: nat, n: nat)
    requires 1 <= i && i + n <= |s|
    ensures s[1..][i - 1..i - 1 + n] == s[i..i + n]
  {
  }

  /** `s.length`: UTF-16 code units, two for every character outside the Basic
      Multilingual Plane. */
  function Utf16Length(s: string): (n: nat)
    ensures |s| <= n <= 2 * |s|
  {
    if |s| == 0 then 0 else (if s[0] as int > 0xFFFF then 2 else 1) + Utf16Length(s[1..])
  }

  /** `s.split(sep)`: the pieces between occurrences of `sep`. */
  function Split(s: string, sep: char): (parts: seq<string>)
    ensures |parts| >= 1
    ensures forall i, j :: 0 <= i < |parts| && 0 <= j < |parts[i]| ==> parts[i][j] != sep
  {
    if sep !in s then [s]
    else
      var k := FirstIndex(s, sep);
      [s[..k]] + Split(s[k + 1..], sep)
  }

  function FirstIndex(s: string, c: char): (k: nat)
    requires c in s
    ensures k < |s| && s[k] == c && c !in s[..k]
  {
    if s[0] == c then 0 else 1 + FirstIndex(s[1..], c)
  }

  /** `parts.join(sep)`. */
  function Join(parts: seq<string>, sep: char): string
    requires |parts| >= 1
  {
    if |parts| == 1 then parts[0] else parts[0] + [sep] + Join(parts[1..], sep)
  }

  lemma JoinCons(a: string, rest: seq<string>, sep: char)
    requires |rest| >= 1
    ensures Join([a] + rest, sep) == a + [sep] + Join(rest, sep)
  {
    assert ([a] + rest)[1..] == rest;
  }

  /** Splitting and joining again on the same separator gives the original string. */
  lemma {:induction false} SplitJoin(s: string, sep: char)
    ensures Join(Split(s, sep), sep) == s
    decreases |s|
  {
    if sep in s {
      var k := FirstIndex(s, sep);
      var rest := Split(s[k + 1..], sep);
      SplitJoin(s[k + 1..], sep);
      JoinCons(s[..k], rest, sep);
      assert s == s[..k] + [sep] + s[k + 1..];
    }
  }

  /** The value of an ASCII letter or digit as a digit of base 36. */
  function DigitValue(c: char): (d: nat)
    ensures d <= 36
  {
    if '0' <= c <= '9' then c as int - '0' as int
    else if 'a' <= c <= 'z' then c as int - 'a' as int + 10
    else if 'A' <= c <= 'Z' then c as int - 'A' as int + 10
    else 36
  }

  /** Length of the longest prefix of `s` made of digits of the given radix. */
  function DigitRun(s: string, radix: nat): (n: nat)
    ensures n <= |s|
    ensures forall i :: 0 <= i < n ==> DigitValue(s[i]) < radix
    ensures n < |s| ==> DigitValue(s[n]) >= radix
  {
    if |s| > 0 && DigitValue(s[0]) < radix then 1 + DigitRun(s[1..], radix) else 0
  }

  /** The number written by the digits `ds`, most significant first. */
  function DigitsValue(ds: string, radix: nat): nat
  {
    if |ds| == 0 then 0
    else DigitsValue(ds[..|ds| - 1], radix) * radix + DigitValue(ds[|ds| - 1])
  }

  /** `parseInt(s)` with no radix: skip leading whitespace, take one optional sign, read a
      hexadecimal number after `0x`/`0X` and a decimal one otherwise, stop at the first
      character that is not a digit; `None` stands for NaN (no digits at all). */
  function ParseInt(s: string): Option<int>
  {
    var t := TrimStart(s);
    var sign := if |t| > 0 && t[0] == '-' then -1 else 1;
    var u := Unsigned(t);
    var radix := Radix(u);
    var v := Unprefixed(u);
    var n := DigitRun(v, radix);
    if n == 0 then None else Some(sign * DigitsValue(v[..n], radix))
  }

  /** Strings with no digit where one is expected read as NaN. */
  lemma ParseIntUnreadable()
    ensures ParseInt("abc") == None
    ensures ParseInt("") == None
    ensures ParseInt("-") == None
  {
    ParseIntLetters();
    ParseIntSignOnly();
  }

  lemma ParseIntLetters()
    ensures ParseInt("abc") == None
  {
    var s := "abc";
    assert s[0] == 'a' && !IsWhitespace(s[0]);
    assert TrimStart(s) == s;
    assert Unsigned(s) == s && !HasHexPrefix(s);
    assert DigitValue(s[0]) == 10;
  }

  lemma ParseIntSignOnly()
    ensures ParseInt("-") == None
  {
    var s := "-";
    assert s[0] == '-' && !IsWhitespace(s[0]);
    assert TrimStart(s) == s;
    assert Unsigned(s) == "";
  }

  /** Leading whitespace and zeros are skipped and the digits stop at the first letter. */
  lemma ParseIntPadded()
    ensures ParseInt(" 07px") == Some(7)
  {
    var v := "07px";
    PaddedTrimmed();
    assert Unsigned(v) == v && !HasHexPrefix(v);
    PaddedDigits();
  }

  lemma PaddedTrimmed()
    ensures TrimStart(" 07px") == "07px"
  {
    var v := "07px";
    assert " 07px"[0] == ' ' && " 07px"[1..] == v;
    assert v[0] == '0' && !IsWhitespace(v[0]);
    assert TrimStart(v) == v;
  }

  lemma PaddedDigits()
    ensures DigitRun("07px", 10) == 2
    ensures DigitsValue("07px"[..2], 10) == 7
  {
    var v := "07px";
    assert v[1..] == "7px" && "7px"[1..] == "px";
    assert DigitValue('p') == 25;
    assert DigitRun("px", 10) == 0;
    assert v[..2] == "07" && "07"[..1] == "0";
  }

  function Unsigned(t: string): string {
    if |t| > 0 && (t[0] == '-' || t[0] == '+') then t[1..] else t
  }

  predicate HasHexPrefix(u: string) {
    |u| >= 2 && u[0] == '0' && (u[1] == 'x' || u[1] == 'X')
  }

  function Radix(u: string): nat {
    if HasHexPrefix(u) then 16 else 10
  }

  function Unprefixed(u: string): string {
    if HasHexPrefix(u) then u[2..] else u
  }

  function DigitChar(d: nat): (c: char)
    requires d < 10
    ensures DigitValue(c) == d
  {
    ('0' as int + d) as char
  }

  /** Decimal rendering of a natural number, as `String(n)`. */
  function ShowNat(n: nat): (s: string)
    ensures |s| >= 1
    ensures forall i :: 0 <= i < |s| ==> '0' <= s[i] <= '9'
  {
    if n < 10 then [DigitChar(n)] else ShowNat(n / 10) + [DigitChar(n % 10)]
  }

  /** Decimal rendering of an integer, with a leading `-` when negative. */
  function Show(n: int): string {
    if n < 0 then "-" + ShowNat(-n) else ShowNat(n)
  }

  lemma {:induction false} ShowNatValue(n: nat)
    ensures DigitRun(ShowNat(n), 10) == |ShowNat(n)|
    ensures DigitsValue(ShowNat(n), 10) == n
  {
    var s := ShowNat(n);
    if n >= 10 {
      ShowNatValue(n / 10);
      assert s[..|s| - 1] == ShowNat(n / 10);
    }
  }

  lemma ParseDigits(digits: string)
    requires forall i :: 0 <= i < |digits| ==> '0' <= digits[i] <= '9'
    requires DigitRun(digits, 10) == |digits|
    ensures !HasHexPrefix(digits)
    ensures Radix(digits) == 10 && Unprefixed(digits) == digits
    ensures digits[..DigitRun(digits, 10)] == digits
  {
    if |digits| >= 2 {
      assert '0' <= digits[1] <= '9';
    }
  }

  lemma TrimStartKeeps(s: string)
    requires |s| > 0 && !IsWhitespace(s[0])
    ensures TrimStart(s) == s
  {
  }

  /** The number `ParseInt` reads from a run of decimal digits after an optional sign. */
  lemma ParseSigned(s: string, digits: string, negative: bool)
    requires |digits| >= 1
    requires forall i :: 0 <= i < |digits| ==> '0' <= digits[i] <= '9'
    requires DigitRun(digits, 10) == |digits|
    requires s == if negative then "-" + digits else digits
    ensures ParseInt(s) == Some((if negative then -1 else 1) * DigitsValue(digits, 10))
  {
    ParseDigits(digits);
    assert s[0] == '-' || '0' <= s[0] <= '9';
    TrimStartKeeps(s);
    assert Unsigned(s) == digits;
  }

  /** `parseInt` reads back every decimal rendering exactly. */
  lemma ParseShow(n: int)
    ensures ParseInt(Show(n)) == Some(n)
  {
    var m := if n < 0 then -n else n;
    ShowNatValue(m);
    ParseSigned(Show(n), ShowNat(m), n < 0);
  }
}

=== FILE: user_model.dfy ===
/** The User schema (`middleware/models/User.js`): field rules, defaults and the
    password check. Hashing, comparing and signing are foreign calls, passed in as functions. */
module UserModel {
  import opened Wrappers
  import opened Identity
  import opened Text
  import opened Validation

  datatype Role = Member | Admin

  function RoleName(r: Role): string {
    match r
    case Member => "user"
    case Admin => "admin"
  }

  /** The `enum` rule on `role`. */
  function ParseRole(s: string): (r: Option<Role>)
    ensures r.Some? <==> s == "user" || s == "admin"
    ensures r.Some? ==> RoleName(r.value) == s
  {
    if s == "user" then Some(Member) else if s == "admin" then Some(Admin) else None
  }

  lemma RoleRoundTrip(r: Role)
    ensures ParseRole(RoleName(r)) == Some(r)
  {
  }

  const DefaultRole := Member
  const MinPasswordLength := 6

  const NameRequired := "Please add a name"
  const EmailRequired := "Please add an email"
  const PasswordRequired := "Please add a password"
  const PasswordTooShort := "Password must be at least 6 characters"

  /** A stored user. `password` holds the hash, never the plain text. */
  datatype User = User(
    id: Id,
    name: string,
    email: string,
    password: string,
    role: Role,
    interests: seq<string>,
    createdAt: Instant)

  /** The `lowercase` and `trim` setters on `email`. */
  function NormalizeEmail(email: string): (r: string)
    ensures |r| > 0 ==> !IsWhitespace(r[0]) && !IsWhitespace(r[|r| - 1])
    ensures forall i :: 0 <= i < |r| ==> !IsAsciiUpper(r[i])
  {
    TrimSubset(ToLower(email));
    Trim(ToLower(email))
  }

  function PasswordErrors(password: string): (errs: seq<FieldError>)
    ensures errs == [] <==> Utf16Length(password) >= MinPasswordLength
  {
    if password == "" then [FieldError("password", PasswordRequired)]
    else if Utf16Length(password) < MinPasswordLength then [FieldError("password", PasswordTooShort)]
    else []
  }

  function RoleErrors(role: Option<string>): (errs: seq<FieldError>)
    ensures errs == [] <==> role.None? || ParseRole(role.value).Some?
  {
    if role.Some? && ParseRole(role.value).None? then [FieldError("role", EnumMessage(role.value, "role"))] else []
  }

  /** Every rule of a new user, in schema order. */
  function UserErrors(name: string, email: string, password: string, role: Option<string>): seq<FieldError> {
    Required("name", NameRequired, Trim(name))
    + Required("email", EmailRequired, NormalizeEmail(email))
    + PasswordErrors(password)
    + RoleErrors(role)
  }

  /** `User.create({ name, email, password, role })` at instant `now`: setters trim the
      name and normalise the email, defaults fill `role` (when none is given), `interests`
      and `createdAt`, validation checks the plain password, and the save hook stores
      `hash(password)` in its place. */
  function NewUser(id: Id, name: string, email: string, password: string, role: Option<string>,
                   now: Instant, hash: string -> string): (r: Result<User, seq<FieldError>>)
    ensures r.Ok? <==> UserErrors(name, email, password, role) == []
    ensures r.Err? ==> r.error == UserErrors(name, email, password, role)
    ensures r.Ok? ==> r.value.id == id && r.value.name == Trim(name) && r.value.name != ""
    ensures r.Ok? ==> r.value.email == NormalizeEmail(email) && r.value.email != ""
    ensures r.Ok? ==> Utf16Length(password) >= MinPasswordLength && r.value.password == hash(password)
    ensures r.Ok? ==> r.value.role == (if role.Some? then ParseRole(role.value).value else DefaultRole)
    ensures r.Ok? ==> r.value.interests == [] && r.value.createdAt == now
  {
    var errs := UserErrors(name, email, password, role);
    if errs != [] then Err(errs)
    else
      assert RoleErrors(role) == [];
      var granted := if role.Some? then ParseRole(role.value).value else DefaultRole;
      Ok(User(id, Trim(name), NormalizeEmail(email), hash(password), granted, [], now))
  }

  /** `user.matchPassword(entered)`: no stored password (absent or empty) never matches;
      otherwise the foreign `compare` decides. */
  function MatchPassword(stored: Option<string>, entered: string, compare: (string, string) -> bool): (ok: bool)
    ensures stored.None? || stored.value == "" ==> !ok
    ensures ok <==> stored.Some? && stored.value != "" && compare(entered, stored.value)
  {
    if stored.None? || stored.value == "" then false else compare(entered, stored.value)
  }
}

=== FILE: validation.dfy ===
/** Schema validation failures in the shape the document mapper reports them: one entry per
    failing path, collected in schema order into a single error with no status code. */
module Validation {
  import opened Errors

  datatype FieldError = FieldError(path: string, message: string)

  /** `path: message` entries joined with `, `. */
  function Describe(errors: seq<FieldError>): string {
    if |errors| == 0 then ""
    else if |errors| == 1 then errors[0].path + ": " + errors[0].message
    else errors[0].path + ": " + errors[0].message + ", " + Describe(errors[1..])
  }

  /** The error a failed validation raises. `prefix` is `<Model> validation failed` for a
      document and `Validation failed` for an update. It carries no status code, so the
      error handler answers it with 500. */
  function Invalid(prefix: string, errors: seq<FieldError>): Failure {
    Crash(prefix + ": " + Describe(errors))
  }

  /** A `required` string path after its setters ran: the empty string is missing. */
  function Required(path: string, message: string, value: string): seq<FieldError> {
    if value == "" then [FieldError(path, message)] else []
  }

  /** The mapper's default message for a value outside an `enum`. */
  function EnumMessage(value: string, path: string): string {
    "`" + value + "` is not a valid enum value for path `" + path + "`."
  }
}

=== FILE: wrappers.dfy ===
/** Failure-compatible wrappers shared by every module of the model. */
module Wrappers {

  /** A value that may be absent: an optional request field, a failed lookup. */
  datatype Option<+T> = None | Some(value: T) {
    predicate IsFailure() { None? }

    function PropagateFailure<U>(): Option<U>
      requires None?
    {
      None
    }

    function Extract(): T
      requires Some?
    {
      value
    }

    function GetOr(default: T): T {
      match this
      case Some(v) => v
      case None => default
    }
  }

  /** The outcome of an operation that either succeeds with a value or fails with an error. */
  datatype Result<+R, +E> = Ok(value: R) | Err(error: E) {
    predicate IsFailure() { Err? }

    function PropagateFailure<U>(): Result<U, E>
      requires Err?
    {
      Err(error)
    }

    function Extract(): R
      requires Ok?
    {
      value
    }
  }
}
